=== FILE: README.md ===
# EC2 tagging rule and GuardDuty notifier, modelled in Dafny

This project models two AWS Lambda functions and proves properties of them.

**The EC2 tagging Config rule** (`activity-1/check-set-tags.py`). AWS Config
calls `lambda_handler` with an event that carries an invoking event and the
rule parameters. The handler reads the configuration item from the event. For
an oversized change notification it fetches the item from the configuration
history instead, and converts it from the API model to the invocation model.
It then decides whether the item is in scope and classifies it. An EC2
instance of a desired instance type is scanned tag by tag:

- the first `env=prod` tag makes it COMPLIANT, and it is tagged with a
  default `owner` when it has no `owner` tag;
- every `env` tag before the first `env=prod` stops the instance (an empty
  value raises);
- an instance with no `env=prod` tag is NON_COMPLIANT.

The handler reports the verdict with `put_evaluations`. The STS error
scrubbing of `get_assume_role_credentials` is modelled on its own.

**The GuardDuty notifier** (`activity-4/guard-duty-check.py`). Each finding
is published to an SNS topic with the title as subject, cut to 100
characters. It is then counted as high, medium or low severity. The three
counters live between invocations in the text of the CloudWatch dashboard
`Security`:

- `lambda_handler` seeds them from the 5th, 6th and 7th runs of digits in the
  dashboard body;
- it counts the finding;
- it rewrites every `High:<digits>`, `Medium:<digits>` and `Low:<digits>`
  token with the new counts;
- it puts the body back.

Python values are modelled by the JSON-like `Python.Value`. A raised
exception is an `Err` of `Python.Result`. The rest of the model follows the
source:

- **Pure code** is written as functions. Every request sent to AWS is
  recorded in a log. A pure function returns its outcome together with the
  requests sent (`Services.Run`).
- **Code that changes state** is written as methods. Each method is proved to
  return that outcome and to append exactly those requests to the log kept
  by `Services.Aws` or `GuardDuty.Notifier`.
- **Loops** are written as `while` loops with their invariants: the tag
  scans and the relationship renaming. The GuardDuty counter updates have no
  loop in the source. They are field assignments in the methods of
  `GuardDuty.Notifier`.

## Model

| member | source | states |
|---|---|---|
| Python.CheckDefined | activity-1/check-set-tags.py:25-28 | succeeds exactly on truthy values and returns them unchanged; otherwise raises the not-defined error naming the reference |
| Python.PyIn | activity-1/check-set-tags.py:143 | `x in container`: list membership for lists, substring for strings, key membership for dicts; TypeError for scalars |
| ConfigurationItem.IsOversizedChangedNotification | activity-1/check-set-tags.py:31-33 | raises exactly when the message type is falsy; otherwise true exactly for `OversizedConfigurationItemChangeNotification` |
| ConfigurationItem.NameRelationships | activity-1/check-set-tags.py:56-58 | succeeds exactly when every relationship is a dict with `relationshipName`; the result has the same length and each entry gains `name` equal to its `relationshipName`; on failure, the error is that of the first bad entry |
| ConfigurationItem.NameEntries | activity-1/check-set-tags.py:56-58 | the in-place renaming loop computes exactly `NameRelationships` |
| ConfigurationItem.RenamedRelationships | activity-1/check-set-tags.py:56-58 | the loop over `relationships` succeeds exactly on a list whose entries can all be named, an empty string or an empty dict; a list becomes its named entries, and the empty values are kept as they are |
| ConfigurationItem.Converted | activity-1/check-set-tags.py:47-59 | succeeds exactly on a dict with the four API keys, `configuration` and convertible relationships; a non-dict raises AttributeError and a missing `accountId` raises KeyError; the keys are the old keys plus the four renamed ones, each holding the value of its API key; every other key except `relationships` is unchanged, and relationships get their `name` |
| ConfigurationItem.ConvertApiConfiguration | activity-1/check-set-tags.py:47-59 | the step-by-step conversion computes exactly `Converted` |
| ConfigurationItem.NotificationShape | activity-1/check-set-tags.py:64-66 | a falsy invoking event raises the `invokingEvent` error; on success, the message type is present and truthy, and the result says whether it is an oversized notification |
| ConfigurationItem.HistoryQuery | activity-1/check-set-tags.py:64-68 | on success, the summary is present and truthy, and the query asks for one history record of its resource type and id at its capture time |
| ConfigurationItem.FetchedItem | activity-1/check-set-tags.py:43-44 | a response without `configurationItems` raises KeyError, and an empty list raises IndexError; otherwise the result is the conversion of the first record |
| ConfigurationItem.SelectItem | activity-1/check-set-tags.py:37-69 | an ordinary notification yields the defined embedded `configurationItem` with no request; an oversized one yields the converted first history record after exactly one history lookup, and raises without any request when its summary or one of the summary's keys is missing; any selected item is truthy |
| ConfigurationItem.GetConfigurationItem | activity-1/check-set-tags.py:64-69 | returns what `SelectItem` selects and sends exactly its lookup requests |
| ConfigurationItem.IsApplicable | activity-1/check-set-tags.py:72-82 | true whenever the item or the event is falsy; otherwise raises unless both keys are present, and is true exactly for status `OK` or `ResourceDiscovered` with a falsy `eventLeftScope` |
| ConfigurationItem.DeletedIsNeverApplicable | activity-1/check-set-tags.py:78-82 | with a truthy event, a deleted resource is never found applicable (a falsy event makes the filter answer yes) |
| ConfigurationItem.ScrubAssumeRoleError | activity-1/check-set-tags.py:90-97 | when the code contains `AccessDenied`, only the message changes, to the permission message, and the code is kept; otherwise the code and message both become `InternalError` |
| ConfigurationItem.ScrubHidesDetail | activity-1/check-set-tags.py:90-97 | two errors with the same code, or two non-AccessDenied errors, scrub to the same error: no original message or code leaks |
| ConfigurationItem.ScrubIsIdempotent | activity-1/check-set-tags.py:90-97 | scrubbing a scrubbed error changes nothing |
| Services.Aws.TagInstance | activity-1/check-set-tags.py:111-116 | appends exactly one `create_tags` request for the instance with the given key and value |
| Services.Aws.StopInstance | activity-1/check-set-tags.py:119-124 | appends exactly one `stop_instances` request for the instance |
| Services.Aws.GetResourceConfigHistory | activity-1/check-set-tags.py:38-42 | appends exactly one history request and returns the recorded history response |
| Services.Aws.PutEvaluation | activity-1/check-set-tags.py:194-203 | appends exactly one `put_evaluations` request with the evaluation and result token |
| Compliance.ReadTag | activity-1/check-set-tags.py:147-151 | a tag is read exactly when it is a dict whose `key` and `value` are strings, and it yields those strings |
| Compliance.OwnerTagged | activity-1/check-set-tags.py:156-163 | succeeds exactly when every tag is readable with a non-empty key; then it is true exactly when some tag's key is `owner` |
| Compliance.HasOwnerTag | activity-1/check-set-tags.py:156-163 | the loop computes exactly `OwnerTagged` |
| Compliance.TagOwner | activity-1/check-set-tags.py:154-167 | returns COMPLIANT and sends the default-owner tag request exactly when no `owner` tag exists, as `OwnerRemediation` says |
| Compliance.OwnerRemediation | activity-1/check-set-tags.py:154-167 | succeeds exactly when the owner scan does, and then is COMPLIANT; it sends the single default-owner tag request exactly when no key is `owner`, and sends nothing when it raises |
| Compliance.ScanTags | activity-1/check-set-tags.py:147-170 | never yields NOT_APPLICABLE; every request it sends stops this instance, except a final default-owner tag that comes only with COMPLIANT |
| Compliance.Precheck | activity-1/check-set-tags.py:127-146 | passing the checks needs `resourceId`, `resourceType` and a truthy `configuration`; the result is NOT_APPLICABLE exactly for non-EC2 resources; the scanned instance is the item's `resourceId` |
| Compliance.Classify | activity-1/check-set-tags.py:127-170 | NOT_APPLICABLE sends nothing; only EC2 instances are ever remediated; every request is a tag or a stop |
| Compliance.EvaluateChangeNotificationCompliance | activity-1/check-set-tags.py:127-170 | the checks followed by the tag loops (`ScanAndRemediate`, `TagOwner`) return exactly the verdict of `Classify` and send exactly its remediation requests, in order |
| Compliance.ScanAndRemediate | activity-1/check-set-tags.py:147-170 | the outer tag loop returns exactly the verdict of `ScanTags` and sends exactly its stop and tag requests, in order |
| Compliance.OwnerRemediationOfTags | activity-1/check-set-tags.py:156-167 | on readable tags with defined keys, the prod branch is COMPLIANT and tags the owner exactly when no key is `owner` |
| Compliance.ScanReachingProd | activity-1/check-set-tags.py:147-169 | a scan that reaches the first `env=prod` tag ends COMPLIANT with the owner remediation, after one stop for each earlier `env` tag |
| Compliance.ScanWithoutProd | activity-1/check-set-tags.py:147-170 | a scan that meets no `env=prod` tag is NON_COMPLIANT and stops the instance once per `env` tag |
| Compliance.ScanEmptyKeyRaises | activity-1/check-set-tags.py:152 | a tag with an empty key makes the scan raise |
| Compliance.ScanEmptyEnvValueRaises | activity-1/check-set-tags.py:153 | an `env` tag with an empty value, met before any `env=prod`, makes the scan raise |
| Compliance.ClassifyScansTags | activity-1/check-set-tags.py:136-147 | an EC2 instance of a desired type with a tag list is classified by the tag scan alone |
| Compliance.ClassifyOtherResource | activity-1/check-set-tags.py:136-137 | a resource that is not an EC2 instance is NOT_APPLICABLE, and nothing is tagged or stopped |
| Compliance.ClassifyWithoutDesiredTypes | activity-1/check-set-tags.py:139-170 | without desired instance types, an EC2 instance is NON_COMPLIANT with no remediation |
| Compliance.ClassifyUndesiredType | activity-1/check-set-tags.py:143-170 | an instance of a type not in the desired list is exactly NON_COMPLIANT with no remediation |
| Compliance.ClassifyDesiredTypeString | activity-1/check-set-tags.py:139-169 | a string `desiredInstanceType` makes the `in` test a substring test: an instance type that does not occur in it is exactly NON_COMPLIANT with no remediation, one that occurs in it reaches the tag scan |
| Compliance.ClassifyProduction | activity-1/check-set-tags.py:147-167 | an instance whose first decisive `env` tag is `prod` is COMPLIANT; it is stopped once per earlier `env` tag and then owner-tagged if unowned |
| Compliance.ClassifyNotProduction | activity-1/check-set-tags.py:147-170 | an instance with no `env=prod` tag is NON_COMPLIANT and stopped once per `env` tag |
| Compliance.ClassifyEmptyKeyRaises | activity-1/check-set-tags.py:152 | a tag with an empty key makes the classifier raise |
| Compliance.ClassifyEmptyEnvValueRaises | activity-1/check-set-tags.py:153 | an empty `env` value before any `env=prod` makes the classifier raise |
| Handler.ReadEvent | activity-1/check-set-tags.py:177-181 | succeeds exactly on a truthy dict event with `invokingEvent`; a falsy event raises the `event` error; the rule parameters are `ruleParameters` when present and an empty dict otherwise |
| Handler.Evaluate | activity-1/check-set-tags.py:190-192 | an applicability error propagates with no request; an item out of scope is NOT_APPLICABLE with no request; an item in scope is classified; every request is a remediation |
| Handler.EvaluateItem | activity-1/check-set-tags.py:190-192 | returns the verdict of `Evaluate` and sends exactly its requests |
| Handler.Report | activity-1/check-set-tags.py:194-203 | the report succeeds exactly when the invoking event embeds a `configurationItem` that names its resource and the event has a result token; it then describes that embedded item; without one it raises KeyError |
| Handler.ReportOn | activity-1/check-set-tags.py:194-203 | the corrected report succeeds exactly when the evaluated item names its resource and the event has a result token, and it describes that item |
| Handler.Respond | activity-1/check-set-tags.py:190-203 | an evaluation error propagates with its remediations; on success, exactly one `put_evaluations` follows the remediations |
| Handler.HandleReporting | activity-1/check-set-tags.py:172-203 | the handler body shared by both report variants: an unreadable event raises with no request; a failed selection raises that error; a returning run has selected an item |
| Handler.Handle | activity-1/check-set-tags.py:172-203 | `lambda_handler` as written: it returns only when the invoking event embeds a `configurationItem` that names its resource; its requests are pinned down by `HandleRequests` (their order and content), `HandleReportsOnlyOnSuccess` and `HandleReportsVerdict` |
| Handler.HandleCorrected | activity-1/check-set-tags.py:172-203 | the corrected handler, which reports the evaluated item: it returns only when the selected item names its resource; `CorrectedReportsEvaluatedItem` gives its report |
| Handler.RequestsBeforeReport | activity-1/check-set-tags.py:189-203 | a raising handler sent only history lookups and remediations; a returning one ends with its single report |
| Handler.HandleReportsOnlyOnSuccess | activity-1/check-set-tags.py:194-203 | the handler reports exactly once when it returns and never when it raises, and the report is its last request |
| Handler.HandleRemediatesOnlyInScope | activity-1/check-set-tags.py:189-192 | an instance is tagged or stopped only after the handler selected an item and found it applicable |
| Handler.HandleReportsVerdict | activity-1/check-set-tags.py:189-203 | a returning handler reports the verdict of the evaluated item under the embedded item's resource type, id and capture time, with the event's result token |
| Handler.HandleRequests | activity-1/check-set-tags.py:189-203 | the requests of a readable event, in order: at most the one history lookup of the item selection (its query), then exactly the remediations of evaluating the selected item, then, when the handler returns, exactly the one report; a failed selection or evaluation sends nothing after what it sent itself |
| Handler.AbsentRuleParametersAreEmpty | activity-1/check-set-tags.py:179-181 | an event without `ruleParameters` is handled exactly as one whose rule parameters are an empty dict |
| Handler.OversizedReportRaises | activity-1/check-set-tags.py:194-203 | for an oversized notification, an evaluation that succeeds still ends in KeyError('configurationItem'), and nothing is reported |
| Handler.OversizedNotificationIsNeverReported | activity-1/check-set-tags.py:194-203 | a concrete oversized notification raises KeyError as written, and the corrected handler returns |
| Handler.CorrectedReportsEvaluatedItem | activity-1/check-set-tags.py:189-203 | the corrected handler reports every evaluated item that names its resource exactly once, oversized or not, with its verdict |
| Handler.LambdaHandler | activity-1/check-set-tags.py:172-203 | the handler returns or raises as `Handle` says and sends exactly its requests: lookup, remediations, report |
| Handler.EvaluateAndReport | activity-1/check-set-tags.py:189-203 | evaluating and reporting return and send exactly what `Respond` says |
| DashboardText.LeadingDigits | activity-4/guard-duty-check.py:75 | the length of the maximal digit run a string starts with |
| DashboardText.DigitRuns | activity-4/guard-duty-check.py:75 | `re.findall('[0-9]+')`: every run is a non-empty string of digits |
| DashboardText.DecimalValue | activity-4/guard-duty-check.py:77-79 | `int()` of a digit run, leading zeros allowed, as the decimal value read left to right; `DecimalRoundTrip` proves it inverts `str()` |
| DashboardText.DecimalString | activity-4/guard-duty-check.py:89-91 | `str(n)` is a non-empty run of digits without a leading zero |
| DashboardText.DecimalRoundTrip | activity-4/guard-duty-check.py:77-91 | `int(str(n)) == n` |
| DashboardText.DigitRunsOfNumber | activity-4/guard-duty-check.py:75-91 | the digit runs of `str(n)` are just `str(n)` |
| DashboardText.DigitRunsOfLayout | activity-4/guard-duty-check.py:75 | the digit runs of numbers written between digit-free separators are the numbers, in order |
| DashboardText.Sub | activity-4/guard-duty-check.py:89-91 | `re.sub('<Label>:[0-9]+', ...)`: the leftmost, non-overlapping, greedy replacement. The scan goes left to right; a token takes the longest digit run after the label and is replaced; the scan resumes after the token; every other character is copied. The Sub lemmas below state its properties |
| DashboardText.SubWithoutToken | activity-4/guard-duty-check.py:89-91 | a text with no `<Label>:<digits>` token is left unchanged |
| DashboardText.SubIsNormal | activity-4/guard-duty-check.py:89-91 | after the rewrite, every token of the label carries exactly the replacement count |
| DashboardText.SubFixesExactlyNormal | activity-4/guard-duty-check.py:89-91 | the rewrite leaves a text unchanged exactly when every token already carries the count |
| DashboardText.SubIdempotent | activity-4/guard-duty-check.py:89-91 | rewriting twice is rewriting once |
| DashboardText.SubKeepsSkeleton | activity-4/guard-duty-check.py:89-91 | the rewrite changes only token digits: with all counts erased, the text before and after is the same |
| DashboardText.OtherSubKeepsNormal | activity-4/guard-duty-check.py:89-91 | rewriting one label's tokens does not disturb another label's rewritten tokens |
| DashboardText.Rewrite | activity-4/guard-duty-check.py:89-91 | the three rewrites in the source's order: `High:`, then `Medium:`, then `Low:`; the Rewrite lemmas below state its properties |
| DashboardText.SubOfLayout | activity-4/guard-duty-check.py:89-91 | on numbers between digit-free separators, the rewrite replaces exactly the numbers right after the label and keeps every separator and every other number |
| DashboardText.RewriteCarriesCounts | activity-4/guard-duty-check.py:89-91 | after the three rewrites, every `High:`, `Medium:` and `Low:` token carries its counter |
| DashboardText.RewriteIdempotent | activity-4/guard-duty-check.py:89-91 | repeating the three rewrites with the same counts changes nothing |
| DashboardText.RewriteWithoutTokens | activity-4/guard-duty-check.py:89-91 | a body with no token is put back unchanged |
| DashboardText.RewriteOfLayout | activity-4/guard-duty-check.py:89-91 | on a laid-out body, the three rewrites relabel the numbers after each label and keep everything else |
| GuardDuty.Subject | activity-4/guard-duty-check.py:53 | the subject is the title's prefix of length min(len, 100); a missing `detail` or `title` raises KeyError for that key; a non-string title is an error other than KeyError |
| GuardDuty.SeverityLevel | activity-4/guard-duty-check.py:55-61 | high exactly for severity ≥ 7, medium exactly for 4 ≤ severity < 7, low exactly for severity < 4; a boolean compares as 0 or 1 and is low; a string, `None`, list or dict severity raises TypeError |
| GuardDuty.SeverityLevelMonotone | activity-4/guard-duty-check.py:56-61 | a higher severity never lands in a lower bucket |
| GuardDuty.SeverityOf | activity-4/guard-duty-check.py:55-61 | a missing `detail` or `severity` raises KeyError for that key; otherwise the result is the bucket of `event['detail']['severity']` |
| GuardDuty.CatchKeyError | activity-4/guard-duty-check.py:64-67 | a KeyError is caught and the function returns `None`; any other error propagates unchanged |
| GuardDuty.Bump | activity-4/guard-duty-check.py:56-61 | exactly the counter of the level changes, and the total grows by one |
| GuardDuty.Tallied | activity-4/guard-duty-check.py:40-67 | returns the success message or `None`; the counters change only on success; a publish request is sent exactly when the subject can be formed |
| GuardDuty.FindingCountedOnce | activity-4/guard-duty-check.py:50-64 | a finding is counted exactly when its subject and severity can be read; it is then published once and moves only its severity's counter, by one; otherwise the total is unchanged |
| GuardDuty.MissingKeyIsCaught | activity-4/guard-duty-check.py:48-67 | a missing `detail`, `title` or `severity` is caught: the function returns `None` with the counters unchanged, and the finding was published if the title could be read |
| GuardDuty.Notifier.IncrementCountsEmailFinding | activity-4/guard-duty-check.py:40-67 | updates the counters and the request log and returns exactly as `Tallied` says |
| GuardDuty.Seeded | activity-4/guard-duty-check.py:75-79 | seeding succeeds exactly when the body has at least seven digit runs, and otherwise raises IndexError; high, medium and low take the values of runs 5, 6 and 7 as far as they exist, and the others keep their values |
| GuardDuty.SeedingReadsLayout | activity-4/guard-duty-check.py:75-79 | a body of numbers between digit-free separators seeds the counters with its 5th, 6th and 7th numbers |
| GuardDuty.Handled | activity-4/guard-duty-check.py:70-92 | the dashboard read comes first. A seeding failure raises IndexError after that read alone. The run returns exactly when seeding and tallying do, and its counters are the tallied ones. A returning run ends by putting back the body rewritten with its final counters. A raising run puts no dashboard |
| GuardDuty.HandledWritesCounts | activity-4/guard-duty-check.py:70-92 | a returning invocation seeded successfully and ends with a dashboard put; in the written body every token carries its final counter, and the body is a fixed point of the rewrite; the total grows by at most one |
| GuardDuty.DashboardRoundTrip | activity-4/guard-duty-check.py:70-92 | on a dashboard whose 5th–7th numbers follow `High:`, `Medium:` and `Low:`, an invocation starts from those numbers, and the body it writes seeds the next invocation with the counters it ended with |
| GuardDuty.Notifier.LambdaHandler | activity-4/guard-duty-check.py:70-92 | updates the counters and the request log and returns exactly as `Handled` says: fetch, seed, count, rewrite, put |
| GuardDuty.Notifier.constructor | activity-4/guard-duty-check.py:11-14 | a fresh container starts with every counter at zero and no request sent |

## Left out

- AWS calls are not executed. Each request is appended to a log. The history
  lookup answers with a fixed response (`Services.Aws.historyResponse`). The
  dashboard read returns a fixed body (`GuardDuty.Notifier.dashboardBody`).
- Failures of AWS calls are not modelled: a `ClientError` from `create_tags`,
  `stop_instances`, `put_evaluations`, `publish`, `get_dashboard` or
  `put_dashboard`.
- `json.loads` of the invoking event, the rule parameters and the
  configuration is the identity: the model takes already-parsed values
  (check-set-tags.py:55, 178, 181). `json.dumps` of the published message is
  not modelled either: the message is the event itself.
- check-set-tags.py imports only `boto3`, `json` and `pprint`. The model
  treats `datetime` and `botocore` as imported. As written, both raise
  NameError:
  - `datetime.datetime` at check-set-tags.py:49 raises on the first field of
    every non-empty history record. So an oversized notification fails inside
    `convert_api_configuration`, before any evaluation, remediation or
    report.
  - `botocore.exceptions` at check-set-tags.py:90 raises as soon as
    `assume_role` fails, so the scrubbing rule is never reached.
- The datetime-to-string pass of `convert_api_configuration`
  (check-set-tags.py:48-50) is not modelled, because the value model has no
  datetimes. With `datetime` imported, the pass only turns datetimes into
  strings.
- `str(configuration_item['resourceId'])` (check-set-tags.py:128) is not
  modelled: the instance is the `resourceId` value itself.
- Python's equality between values of different types is modelled as
  structural equality of `Value`. Numbers are reals, so `1 == 1.0` holds, but
  `True == 1` does not.
- `get_client`, the assume-role mode and the STS call itself
  (check-set-tags.py:10-22, 85-89, 186-187) are left out. Only the
  error-scrubbing rule is modelled, as `ConfigurationItem.ScrubAssumeRoleError`.
- Debug output is left out, because it has no effect on the verdict or the
  requests: `print`, `pprint`, `var_dump` (check-set-tags.py:99-108) and the
  logger (guard-duty-check.py:20-30, 63, 66-67).
- The Cloud9 loader (check-set-tags.py:205-214) and the `__main__` entry
  (guard-duty-check.py:97-98) read files or run at import time, so they are
  left out.
- activity-3/process-cloudwatch-logs.py is not part of this model.
- GuardDuty.Subject: a title that is not a string is modelled as a TypeError.
  It stands for the failures the source hits before Python 3.12: slicing a
  number, `None`, a boolean or a dict, or the SNS parameter check on a list
  subject. Each is an error other than KeyError, so it propagates out of the
  handler. From Python 3.12 on, slicing a dict title raises KeyError instead.
  The function then catches it and returns `None`, and nothing is published.
  The model does not follow that newer behaviour.
- GuardDuty.SeverityLevel: comparing a string, `None`, list or dict severity
  with 7 raises TypeError, as in Python 3. A boolean compares as 0 or 1, so
  it is low.
- GuardDuty.Notifier: the module-level counters persist in the object
  between invocations. Every successful invocation overwrites them from the
  dashboard before use.

## Findings

| source | as written | input that shows it | evidently intended | confidence | as-written member | corrected member |
|---|---|---|---|---|---|---|
| activity-1/check-set-tags.py:194-203 | the report reads `invoking_event['configurationItem']`, which an oversized change notification does not carry, so the handler would raise KeyError at line 197 after evaluating (and possibly remediating) the item fetched from the history. As written, this KeyError is hidden behind the NameError at line 49 (`datetime` is never imported), which stops every non-empty history record earlier; the model treats `datetime` as imported | `Handler.OversizedEvent()` (an oversized notification for a `t2.micro` instance) with `Handler.OversizedHistory()` as the history response | report the configuration item that was evaluated | not executed | Handler.OversizedNotificationIsNeverReported | Handler.CorrectedReportsEvaluatedItem |

=== FILE: compliance.dfy ===
/** The compliance classifier of the EC2 tagging rule
    (`evaluate_change_notification_compliance` in activity-1/check-set-tags.py)
    together with the remediation it triggers: tagging an unowned production
    instance with a default owner, and stopping instances whose `env` tag is
    not `prod`. */
module Compliance {
  import opened Python
  import opened Services

  const EC2_INSTANCE := "AWS::EC2::Instance"
  const DEFAULT_OWNER := "rich@quicloud.com"

  /** A tag whose key and value the scan could read. */
  datatype Tag = Tag(key: string, value: string)

  /** What the debug output at the top of each tag loop demands of a tag:
      `'tagKEY(' + i['key'] + ...` and `'tagVAL(' + i['value'] + ...` index
      the tag and concatenate the results to strings, so a tag that is not a
      dict, lacks either key, or holds a non-string raises there. */
  function ReadTag(tag: Value): (r: Result<Tag>)
    ensures r.Ok? <==> && tag.Dict? && "key" in tag.fields && tag.fields["key"].Str?
                       && "value" in tag.fields && tag.fields["value"].Str?
    ensures r.Ok? ==> r.value == Tag(tag.fields["key"].s, tag.fields["value"].s)
  {
    var key :- Index(tag, "key");
    if !key.Str? then Err(TypeError)
    else
      var value :- Index(tag, "value");
      if !value.Str? then Err(TypeError)
      else Ok(Tag(key.s, value.s))
  }

  /** The inner loop over all tags: reads every tag, raises at the first one
      with an empty key, and otherwise says whether some key is `owner`. */
  function OwnerTagged(tags: seq<Value>): (r: Result<bool>)
    ensures r.Ok? <==> forall j :: 0 <= j < |tags| ==> ReadTag(tags[j]).Ok? && ReadTag(tags[j]).value.key != ""
    ensures r.Ok? ==> (r.value <==> exists j :: 0 <= j < |tags| && ReadTag(tags[j]).value.key == "owner")
  {
    if tags == [] then Ok(false)
    else
      var tag :- ReadTag(tags[0]);
      if tag.key == "" then Err(NotDefined("j['key']"))
      else
        var later :- OwnerTagged(tags[1..]);
        assert forall j :: 1 <= j < |tags| ==> tags[1..][j - 1] == tags[j];
        Ok(tag.key == "owner" || later)
  }

  /** The `env=prod` branch: tag the instance with the default owner unless
      some tag is already an `owner` tag, and report it compliant. */
  function OwnerRemediation(instance: Value, tags: seq<Value>): (r: Run<Verdict>)
    ensures r.outcome.Ok? <==> OwnerTagged(tags).Ok?
    ensures r.outcome.Err? ==> r.calls == []
    ensures r.outcome.Ok? ==> && r.outcome.value == Compliant
                              && (r.calls == [] <==> OwnerTagged(tags).value)
                              && (r.calls != [] ==> r.calls == [CreateTags(instance, "owner", DEFAULT_OWNER)])
  {
    match OwnerTagged(tags)
    case Err(e) => Run(Err(e), [])
    case Ok(hasOwnerTag) =>
      Run(Ok(Compliant), if hasOwnerTag then [] else [CreateTags(instance, "owner", DEFAULT_OWNER)])
  }

  /** The outer loop over the tags still to be scanned (`rest`, a suffix of
      `tags`). The first `env=prod` tag ends the scan; every other `env` tag
      stops the instance and the scan goes on. */
  function ScanTags(instance: Value, tags: seq<Value>, rest: seq<Value>): (r: Run<Verdict>)
    ensures r.outcome != Ok(NotApplicable)
    ensures forall j :: 0 <= j < |r.calls| ==>
              || r.calls[j] == StopInstances(instance)
              || (&& j == |r.calls| - 1
                  && r.calls[j] == CreateTags(instance, "owner", DEFAULT_OWNER)
                  && r.outcome == Ok(Compliant))
    decreases |rest|
  {
    if rest == [] then Run(Ok(NonCompliant), [])
    else match ReadTag(rest[0])
      case Err(e) => Run(Err(e), [])
      case Ok(tag) =>
        if tag.key == "" then Run(Err(NotDefined("i['key']")), [])
        else if tag.key != "env" then ScanTags(instance, tags, rest[1..])
        else if tag.value == "" then Run(Err(NotDefined("i['value']")), [])
        else if tag.value == "prod" then OwnerRemediation(instance, tags)
        else
          var later := ScanTags(instance, tags, rest[1..]);
          Run(later.outcome, [StopInstances(instance)] + later.calls)
  }

  /** How the checks before the tag scan end: with a verdict, or with the
      instance and the tags to scan. */
  datatype Decision = Decided(verdict: Verdict) | Scan(instance: Value, tags: seq<Value>)

  /** The checks of `evaluate_change_notification_compliance` before its tag
      loop, in the source's order. */
  function Precheck(item: Value, ruleParameters: Value): (r: Result<Decision>)
    ensures r.Ok? ==> && item.Dict? && "resourceId" in item.fields && "resourceType" in item.fields
                      && "configuration" in item.fields && Truthy(item.fields["configuration"])
    ensures r.Ok? ==> (r.value == Decided(NotApplicable) <==> item.fields["resourceType"] != Str(EC2_INSTANCE))
    ensures r.Ok? && r.value.Scan? ==> r.value.instance == item.fields["resourceId"]
  {
    var instanceId :- Index(item, "resourceId");
    var _ :- CheckDefined(item, "configuration_item");
    var configuration :- Index(item, "configuration");
    var _ :- CheckDefined(configuration, "configuration_item['configuration']");
    var resourceType :- Index(item, "resourceType");
    if resourceType != Str(EC2_INSTANCE) then Ok(Decided(NotApplicable))
    else
      var desired :- Get(ruleParameters, "desiredInstanceType");
      if !Truthy(desired) then Ok(Decided(NonCompliant))
      else
        var instanceType :- Index(configuration, "instanceType");
        var wanted :- PyIn(instanceType, desired);
        if !wanted then Ok(Decided(NonCompliant))
        else
          var tags :- Index(configuration, "tags");
          var _ :- CheckDefined(tags, "configuration_item['configuration']['tags']");
          if tags.List? then Ok(Scan(instanceId, tags.items)) else Err(TypeError)
  }

  /** `evaluate_change_notification_compliance`: the verdict, or the exception
      it raises, and the remediation requests it sends on the way. */
  function Classify(item: Value, ruleParameters: Value): (r: Run<Verdict>)
    ensures r.outcome == Ok(NotApplicable) ==> r.calls == []
    ensures r.calls != [] ==> && item.Dict? && "resourceType" in item.fields
                              && item.fields["resourceType"] == Str(EC2_INSTANCE)
    ensures forall j :: 0 <= j < |r.calls| ==> IsRemediation(r.calls[j])
  {
    match Precheck(item, ruleParameters)
    case Err(e) => Run(Err(e), [])
    case Ok(Decided(verdict)) => Run(Ok(verdict), [])
    case Ok(Scan(instance, tags)) => ScanTags(instance, tags, tags)
  }

  /** The inner loop of the `env=prod` branch: `hasOwnerTag` is set when
      some tag's key is `owner`; every tag is read and checked on the way. */
  method HasOwnerTag(tags: seq<Value>) returns (r: Result<bool>)
    ensures r == OwnerTagged(tags)
  {
    var hasOwnerTag := false;
    var j := 0;
    while j < |tags|
      invariant 0 <= j <= |tags|
      invariant OwnerTagged(tags)
                == if OwnerTagged(tags[j..]).Err? then OwnerTagged(tags[j..])
                   else Ok(OwnerTagged(tags[j..]).value || hasOwnerTag)
    {
      assert tags[j..][0] == tags[j] && tags[j..][1..] == tags[j + 1..];
      var tag := ReadTag(tags[j]);
      if tag.Err? {
        return Err(tag.error);
      }
      if tag.value.key == "" {
        return Err(NotDefined("j['key']"));
      }
      if tag.value.key == "owner" {
        hasOwnerTag := true;
      }
      j := j + 1;
    }
    assert tags[j..] == [];
    return Ok(hasOwnerTag);
  }

  /** A run preceded by the requests `calls`. */
  function After<T>(calls: seq<Call>, run: Run<T>): Run<T> {
    Run(run.outcome, calls + run.calls)
  }

  lemma AfterAfter<T>(a: seq<Call>, b: seq<Call>, run: Run<T>)
    ensures After(a, After(b, run)) == After(a + b, run)
  {
    assert a + (b + run.calls) == (a + b) + run.calls;
  }

  /** One step of the outer tag loop at position `i`. */
  lemma ScanStep(instance: Value, tags: seq<Value>, i: nat)
    requires i < |tags|
    ensures ScanTags(instance, tags, tags[i..])
            == match ReadTag(tags[i])
               case Err(e) => Run(Err(e), [])
               case Ok(tag) =>
                 if tag.key == "" then Run(Err(NotDefined("i['key']")), [])
                 else if tag.key != "env" then ScanTags(instance, tags, tags[i + 1..])
                 else if tag.value == "" then Run(Err(NotDefined("i['value']")), [])
                 else if tag.value == "prod" then OwnerRemediation(instance, tags)
                 else After([StopInstances(instance)], ScanTags(instance, tags, tags[i + 1..]))
  {
    assert tags[i..][0] == tags[i] && tags[i..][1..] == tags[i + 1..];
  }

  /** The `env=prod` branch through EC2: scan the tags for an owner and tag
      the instance when there is none. */
  method TagOwner(instance: Value, tags: seq<Value>, aws: Aws) returns (r: Result<Verdict>)
    modifies aws
    ensures r == OwnerRemediation(instance, tags).outcome
    ensures aws.calls == old(aws.calls) + OwnerRemediation(instance, tags).calls
  {
    var hasOwnerTag := HasOwnerTag(tags);
    if hasOwnerTag.Err? {
      return Err(hasOwnerTag.error);
    }
    if !hasOwnerTag.value {
      aws.TagInstance(instance, "owner", DEFAULT_OWNER);
    }
    return Ok(Compliant);
  }

  /** `evaluate_change_notification_compliance`, scanning the tags with the
      source's two loops and sending remediation requests through EC2. */
  method EvaluateChangeNotificationCompliance(item: Value, ruleParameters: Value, aws: Aws)
    returns (r: Result<Verdict>)
    modifies aws
    ensures r == Classify(item, ruleParameters).outcome
    ensures aws.calls == old(aws.calls) + Classify(item, ruleParameters).calls
  {
    var decision := Precheck(item, ruleParameters);
    if decision.Err? {
      return Err(decision.error);
    }
    if decision.value.Decided? {
      return Ok(decision.value.verdict);
    }
    var instance, tags := decision.value.instance, decision.value.tags;
    assert Classify(item, ruleParameters) == ScanTags(instance, tags, tags);
    r := ScanAndRemediate(instance, tags, aws);
  }

  /** The outer tag loop of `evaluate_change_notification_compliance`:
      stop the instance at every `env` tag that is not `prod`, and hand the
      first `env=prod` tag over to the owner check. */
  method ScanAndRemediate(instance: Value, tags: seq<Value>, aws: Aws) returns (r: Result<Verdict>)
    modifies aws
    ensures r == ScanTags(instance, tags, tags).outcome
    ensures aws.calls == old(aws.calls) + ScanTags(instance, tags, tags).calls
  {
    ghost var stops: seq<Call> := [];
    var i := 0;
    assert tags[i..] == tags;
    while i < |tags|
      invariant 0 <= i <= |tags|
      invariant aws.calls == old(aws.calls) + stops
      invariant ScanTags(instance, tags, tags) == After(stops, ScanTags(instance, tags, tags[i..]))
    {
      ScanStep(instance, tags, i);
      var tag := ReadTag(tags[i]);
      if tag.Err? {
        return Err(tag.error);
      }
      if tag.value.key == "" {
        return Err(NotDefined("i['key']"));
      }
      if tag.value.key == "env" {
        if tag.value.value == "" {
          return Err(NotDefined("i['value']"));
        }
        if tag.value.value == "prod" {
          r := TagOwner(instance, tags, aws);
          return;
        }
        aws.StopInstance(instance);
        AfterAfter(stops, [StopInstances(instance)], ScanTags(instance, tags, tags[i + 1..]));
        stops := stops + [StopInstances(instance)];
      }
      i := i + 1;
    }
    return Ok(NonCompliant);
  }

  // ---------------------------------------------------------------------
  // Properties of the classifier

  /** The raw tags `tags` read, one for one, as the typed tags `ts`. */
  predicate Reads(tags: seq<Value>, ts: seq<Tag>) {
    |tags| == |ts| && forall j :: 0 <= j < |tags| ==> ReadTag(tags[j]) == Ok(ts[j])
  }

  /** No tag has an empty key. */
  predicate KeysDefined(ts: seq<Tag>) {
    forall j :: 0 <= j < |ts| ==> ts[j].key != ""
  }

  /** How many tags have the key `env`. */
  function EnvCount(ts: seq<Tag>): nat {
    if ts == [] then 0 else (if ts[0].key == "env" then 1 else 0) + EnvCount(ts[1..])
  }

  /** `n` requests to stop `instance`. */
  function Stops(instance: Value, n: nat): (r: seq<Call>)
    ensures |r| == n && forall j :: 0 <= j < n ==> r[j] == StopInstances(instance)
  {
    seq(n, _ => StopInstances(instance))
  }

  /** The owner tag request, sent only when no tag has the key `owner`. */
  function OwnerCall(instance: Value, ts: seq<Tag>): seq<Call> {
    if exists j :: 0 <= j < |ts| && ts[j].key == "owner" then []
    else [CreateTags(instance, "owner", DEFAULT_OWNER)]
  }

  /** The `env=prod` branch reads the owner question off the typed tags. */
  lemma OwnerRemediationOfTags(instance: Value, tags: seq<Value>, ts: seq<Tag>)
    requires Reads(tags, ts) && KeysDefined(ts)
    ensures OwnerRemediation(instance, tags) == Run(Ok(Compliant), OwnerCall(instance, ts))
  {
    var hasOwner := exists j :: 0 <= j < |ts| && ts[j].key == "owner";
    if hasOwner {
      var j :| 0 <= j < |ts| && ts[j].key == "owner";
      assert ReadTag(tags[j]).value.key == "owner";
    }
  }

  /** The stops for the tags `i..k`: one for the tag at `i` if it is an
      `env` tag, then those for the rest. */
  lemma StopsStep(instance: Value, ts: seq<Tag>, i: nat, k: nat)
    requires i < k <= |ts|
    ensures Stops(instance, EnvCount(ts[i..k]))
            == (if ts[i].key == "env" then [StopInstances(instance)] else [])
               + Stops(instance, EnvCount(ts[i + 1..k]))
  {
    assert ts[i..k][0] == ts[i] && ts[i..k][1..] == ts[i + 1..k];
  }

  /** From position `i`, when the first `env=prod` tag is at `k`: one stop for
      every `env` tag in between, then the owner tag if no tag is `owner`. */
  lemma {:induction false} ScanReachingProd(instance: Value, tags: seq<Value>, ts: seq<Tag>, i: nat, k: nat)
    requires Reads(tags, ts) && KeysDefined(ts)
    requires i <= k < |ts| && ts[k] == Tag("env", "prod")
    requires forall j :: i <= j < k && ts[j].key == "env" ==> ts[j].value != "" && ts[j].value != "prod"
    ensures ScanTags(instance, tags, tags[i..])
            == Run(Ok(Compliant), Stops(instance, EnvCount(ts[i..k])) + OwnerCall(instance, ts))
    decreases k - i
  {
    ScanStep(instance, tags, i);
    assert ReadTag(tags[i]) == Ok(ts[i]);
    if i == k {
      assert ts[i..k] == [];
      OwnerRemediationOfTags(instance, tags, ts);
    } else {
      ScanReachingProd(instance, tags, ts, i + 1, k);
      StopsStep(instance, ts, i, k);
    }
  }

  /** From position `i`, when no `env` tag is `prod`: one stop for every
      `env` tag, and the verdict falls through to NON_COMPLIANT. */
  lemma {:induction false} ScanWithoutProd(instance: Value, tags: seq<Value>, ts: seq<Tag>, i: nat)
    requires Reads(tags, ts) && KeysDefined(ts)
    requires i <= |ts|
    requires forall j :: i <= j < |ts| && ts[j].key == "env" ==> ts[j].value != "" && ts[j].value != "prod"
    ensures ScanTags(instance, tags, tags[i..]) == Run(Ok(NonCompliant), Stops(instance, EnvCount(ts[i..])))
    decreases |ts| - i
  {
    if i < |ts| {
      ScanStep(instance, tags, i);
      assert ReadTag(tags[i]) == Ok(ts[i]);
      ScanWithoutProd(instance, tags, ts, i + 1);
      StopsStep(instance, ts, i, |ts|);
      assert ts[i..|ts|] == ts[i..] && ts[i + 1..|ts|] == ts[i + 1..];
    } else {
      assert tags[i..] == [] && ts[i..] == [];
    }
  }

  /** An empty tag key anywhere at or after `i` makes the scan raise: either
      the outer loop reaches it, or an earlier `env=prod` tag sends the inner
      loop over every tag. */
  lemma {:induction false} ScanEmptyKeyRaises(instance: Value, tags: seq<Value>, ts: seq<Tag>, i: nat, e: nat)
    requires Reads(tags, ts)
    requires i <= e < |ts| && ts[e].key == ""
    ensures ScanTags(instance, tags, tags[i..]).outcome.Err?
    decreases e - i
  {
    assert tags[i..][0] == tags[i] && tags[i..][1..] == tags[i + 1..];
    assert ReadTag(tags[i]) == Ok(ts[i]);
    if ts[i] == Tag("env", "prod") {
      assert ReadTag(tags[e]).value.key == "";
    } else if ts[i].key != "" && !(ts[i].key == "env" && ts[i].value == "") {
      ScanEmptyKeyRaises(instance, tags, ts, i + 1, e);
    }
  }

  /** An `env` tag with an empty value raises unless an `env=prod` tag comes
      before it. */
  lemma {:induction false} ScanEmptyEnvValueRaises(instance: Value, tags: seq<Value>, ts: seq<Tag>, i: nat, e: nat)
    requires Reads(tags, ts)
    requires i <= e < |ts| && ts[e] == Tag("env", "")
    requires forall j :: i <= j < e ==> ts[j] != Tag("env", "prod")
    ensures ScanTags(instance, tags, tags[i..]).outcome.Err?
    decreases e - i
  {
    assert tags[i..][0] == tags[i] && tags[i..][1..] == tags[i + 1..];
    assert ReadTag(tags[i]) == Ok(ts[i]);
    if i < e && ts[i].key != "" && !(ts[i].key == "env" && ts[i].value == "") {
      ScanEmptyEnvValueRaises(instance, tags, ts, i + 1, e);
    }
  }

  /** The checks that let an item reach the tag scan: an EC2 instance whose
      type is listed in `desiredInstanceType` and that has a non-empty tag
      list. */
  predicate ReachesTagScan(item: Value, ruleParameters: Value) {
    && item.Dict? && "resourceId" in item.fields && "resourceType" in item.fields
    && item.fields["resourceType"] == Str(EC2_INSTANCE)
    && "configuration" in item.fields
    && var configuration := item.fields["configuration"];
    && configuration.Dict? && "instanceType" in configuration.fields && "tags" in configuration.fields
    && configuration.fields["tags"].List? && configuration.fields["tags"].items != []
    && ruleParameters.Dict? && "desiredInstanceType" in ruleParameters.fields
    && ruleParameters.fields["desiredInstanceType"].List?
    && configuration.fields["instanceType"] in ruleParameters.fields["desiredInstanceType"].items
  }

  /** The tag list of an item that reaches the scan. */
  function TagsOf(item: Value): seq<Value>
    requires item.Dict? && "configuration" in item.fields
    requires item.fields["configuration"].Dict? && "tags" in item.fields["configuration"].fields
    requires item.fields["configuration"].fields["tags"].List?
  {
    item.fields["configuration"].fields["tags"].items
  }

  /** An item that passes the checks is classified by the tag scan alone. */
  lemma ClassifyScansTags(item: Value, ruleParameters: Value)
    requires ReachesTagScan(item, ruleParameters)
    ensures Classify(item, ruleParameters)
            == ScanTags(item.fields["resourceId"], TagsOf(item), TagsOf(item))
  {
    var configuration := item.fields["configuration"];
    assert "tags" in configuration.fields.Keys;
    var desired := ruleParameters.fields["desiredInstanceType"];
    assert desired.items != [] by {
      assert configuration.fields["instanceType"] in desired.items;
    }
  }

  /** A resource that is not an EC2 instance is NOT_APPLICABLE, and nothing
      is tagged or stopped. */
  lemma ClassifyOtherResource(item: Value, ruleParameters: Value)
    requires item.Dict? && "resourceId" in item.fields && "resourceType" in item.fields
    requires "configuration" in item.fields && Truthy(item.fields["configuration"])
    requires item.fields["resourceType"] != Str(EC2_INSTANCE)
    ensures Classify(item, ruleParameters) == Run(Ok(NotApplicable), [])
  {
    assert Truthy(item) by {
      assert "resourceId" in item.fields.Keys;
    }
  }

  /** With no `desiredInstanceType` rule parameter an EC2 instance falls
      through to NON_COMPLIANT, and nothing is tagged or stopped. */
  lemma ClassifyWithoutDesiredTypes(item: Value, ruleParameters: Value)
    requires item.Dict? && "resourceId" in item.fields && "resourceType" in item.fields
    requires "configuration" in item.fields && Truthy(item.fields["configuration"])
    requires item.fields["resourceType"] == Str(EC2_INSTANCE)
    requires ruleParameters.Dict?
    requires "desiredInstanceType" !in ruleParameters.fields
             || !Truthy(ruleParameters.fields["desiredInstanceType"])
    ensures Classify(item, ruleParameters) == Run(Ok(NonCompliant), [])
  {
    assert Truthy(item) by {
      assert "resourceId" in item.fields.Keys;
    }
  }

  /** An EC2 instance of a type not in the listed `desiredInstanceType`
      values is NON_COMPLIANT, and nothing is tagged or stopped. */
  lemma ClassifyUndesiredType(item: Value, ruleParameters: Value)
    requires item.Dict? && "resourceId" in item.fields && "resourceType" in item.fields
    requires item.fields["resourceType"] == Str(EC2_INSTANCE)
    requires "configuration" in item.fields
    requires item.fields["configuration"].Dict? && "instanceType" in item.fields["configuration"].fields
    requires ruleParameters.Dict? && "desiredInstanceType" in ruleParameters.fields
    requires ruleParameters.fields["desiredInstanceType"].List?
    requires item.fields["configuration"].fields["instanceType"] !in ruleParameters.fields["desiredInstanceType"].items
    ensures Classify(item, ruleParameters) == Run(Ok(NonCompliant), [])
  {
    assert Truthy(item) by {
      assert "resourceId" in item.fields.Keys;
    }
    assert Truthy(item.fields["configuration"]) by {
      assert "instanceType" in item.fields["configuration"].fields.Keys;
    }
  }

  /** A string `desiredInstanceType` turns the source's `in` into a substring
      test: an instance type that does not occur in the string is
      NON_COMPLIANT with nothing tagged or stopped, and one that occurs in it
      (`"t2"` in `"t2.micro"`, say) goes on to the tag scan. */
  lemma ClassifyDesiredTypeString(item: Value, ruleParameters: Value, d: string, t: string)
    requires item.Dict? && "resourceId" in item.fields && "resourceType" in item.fields
    requires item.fields["resourceType"] == Str(EC2_INSTANCE)
    requires "configuration" in item.fields
    requires item.fields["configuration"].Dict? && "instanceType" in item.fields["configuration"].fields
    requires item.fields["configuration"].fields["instanceType"] == Str(t)
    requires ruleParameters.Dict? && "desiredInstanceType" in ruleParameters.fields
    requires ruleParameters.fields["desiredInstanceType"] == Str(d) && d != []
    ensures !IsSubstring(t, d) ==> Classify(item, ruleParameters) == Run(Ok(NonCompliant), [])
    ensures (&& IsSubstring(t, d) && "tags" in item.fields["configuration"].fields
             && item.fields["configuration"].fields["tags"].List?
             && item.fields["configuration"].fields["tags"].items != [])
            ==> Classify(item, ruleParameters)
                == ScanTags(item.fields["resourceId"], TagsOf(item), TagsOf(item))
  {
    assert Truthy(item) by {
      assert "resourceId" in item.fields.Keys;
    }
    assert Truthy(item.fields["configuration"]) by {
      assert "instanceType" in item.fields["configuration"].fields.Keys;
    }
  }

  /** The first `env=prod` tag (at `k`) makes the instance COMPLIANT. Every
      `env` tag before it has stopped the instance once, and the default
      owner tag is added exactly when no tag has the key `owner`. */
  lemma ClassifyProduction(item: Value, ruleParameters: Value, ts: seq<Tag>, k: nat)
    requires ReachesTagScan(item, ruleParameters)
    requires Reads(TagsOf(item), ts) && KeysDefined(ts)
    requires k < |ts| && ts[k] == Tag("env", "prod")
    requires forall j :: 0 <= j < k && ts[j].key == "env" ==> ts[j].value != "" && ts[j].value != "prod"
    ensures Classify(item, ruleParameters)
            == Run(Ok(Compliant), Stops(item.fields["resourceId"], EnvCount(ts[..k]))
                                  + OwnerCall(item.fields["resourceId"], ts))
  {
    ClassifyScansTags(item, ruleParameters);
    assert TagsOf(item)[0..] == TagsOf(item) && ts[0..k] == ts[..k];
    ScanReachingProd(item.fields["resourceId"], TagsOf(item), ts, 0, k);
  }

  /** Without an `env=prod` tag the instance is NON_COMPLIANT after one stop
      for every `env` tag. */
  lemma ClassifyNotProduction(item: Value, ruleParameters: Value, ts: seq<Tag>)
    requires ReachesTagScan(item, ruleParameters)
    requires Reads(TagsOf(item), ts) && KeysDefined(ts)
    requires forall j :: 0 <= j < |ts| && ts[j].key == "env" ==> ts[j].value != "" && ts[j].value != "prod"
    ensures Classify(item, ruleParameters)
            == Run(Ok(NonCompliant), Stops(item.fields["resourceId"], EnvCount(ts)))
  {
    ClassifyScansTags(item, ruleParameters);
    assert TagsOf(item)[0..] == TagsOf(item) && ts[0..] == ts;
    ScanWithoutProd(item.fields["resourceId"], TagsOf(item), ts, 0);
  }

  /** A tag with an empty key makes the classifier raise. */
  lemma ClassifyEmptyKeyRaises(item: Value, ruleParameters: Value, ts: seq<Tag>, e: nat)
    requires ReachesTagScan(item, ruleParameters)
    requires Reads(TagsOf(item), ts)
    requires e < |ts| && ts[e].key == ""
    ensures Classify(item, ruleParameters).outcome.Err?
  {
    ClassifyScansTags(item, ruleParameters);
    assert TagsOf(item)[0..] == TagsOf(item);
    ScanEmptyKeyRaises(item.fields["resourceId"], TagsOf(item), ts, 0, e);
  }

  /** An `env` tag with an empty value, reached before any `env=prod` tag,
      makes the classifier raise. */
  lemma ClassifyEmptyEnvValueRaises(item: Value, ruleParameters: Value, ts: seq<Tag>, e: nat)
    requires ReachesTagScan(item, ruleParameters)
    requires Reads(TagsOf(item), ts)
    requires e < |ts| && ts[e] == Tag("env", "")
    requires forall j :: 0 <= j < e ==> ts[j] != Tag("env", "prod")
    ensures Classify(item, ruleParameters).outcome.Err?
  {
    ClassifyScansTags(item, ruleParameters);
    assert TagsOf(item)[0..] == TagsOf(item);
    ScanEmptyEnvValueRaises(item.fields["resourceId"], TagsOf(item), ts, 0, e);
  }
}

=== FILE: configuration_item.dfy ===
/** The configuration normalizer of the EC2 tagging rule
    (activity-1/check-set-tags.py): choosing between the inline and the
    oversized notification shapes, fetching and renaming an oversized item,
    the applicability filter, and the scrubbing of role-assumption errors. */
module ConfigurationItem {
  import opened Python
  import opened Services

  const OVERSIZED_NOTIFICATION := "OversizedConfigurationItemChangeNotification"

  /** `is_oversized_changed_notification`: a falsy message type raises. */
  function IsOversizedChangedNotification(messageType: Value): (r: Result<bool>)
    ensures r.Err? <==> !Truthy(messageType)
    ensures r.Err? ==> r.error == NotDefined("messageType")
    ensures r.Ok? ==> (r.value <==> messageType == Str(OVERSIZED_NOTIFICATION))
  {
    var _ :- CheckDefined(messageType, "messageType");
    Ok(messageType == Str(OVERSIZED_NOTIFICATION))
  }

  // ---------------------------------------------------------------------
  // convert_api_configuration

  /** The four keys the history API names differently from a notification. */
  const RENAMED_KEYS: set<string> :=
    {"awsAccountId", "ARN", "configurationStateMd5Hash", "configurationItemVersion"}

  /** `relationship['name'] = relationship['relationshipName']` on one entry. */
  function NameRelationship(relationship: Value): Result<Value> {
    match relationship
    case Dict(m) =>
      if "relationshipName" in m then Ok(Dict(m["name" := m["relationshipName"]]))
      else Err(KeyError("relationshipName"))
    case _ => Err(TypeError)
  }

  /** Whether one relationship entry can be given its `name`. */
  predicate Nameable(relationship: Value) {
    relationship.Dict? && "relationshipName" in relationship.fields
  }

  /** The entry with `name` copied from `relationshipName`. */
  function Named(relationship: Value): Value
    requires Nameable(relationship)
  {
    Dict(relationship.fields["name" := relationship.fields["relationshipName"]])
  }

  /** The renaming loop over a list of relationships: it stops at the first
      entry that cannot be renamed, and otherwise renames every entry. */
  function NameRelationships(relationships: seq<Value>): (r: Result<seq<Value>>)
    ensures r.Ok? <==> forall j :: 0 <= j < |relationships| ==> Nameable(relationships[j])
    ensures r.Ok? ==> |r.value| == |relationships|
    ensures r.Ok? ==> forall j :: 0 <= j < |relationships| ==> r.value[j] == Named(relationships[j])
    ensures r.Err? ==> exists j :: 0 <= j < |relationships| && !Nameable(relationships[j])
                         && r == NameRelationship(relationships[j]).PropagateFailure()
                         && forall i :: 0 <= i < j ==> Nameable(relationships[i])
  {
    if relationships == [] then Ok([])
    else
      var head :- NameRelationship(relationships[0]);
      var tail :- NameRelationships(relationships[1..]);
      assert forall j :: 1 <= j < |relationships| ==> relationships[1..][j - 1] == relationships[j];
      Ok([head] + tail)
  }

  /** What `for i in range(len(rels))` does to the value under
      `relationships`: only a list has entries to rename; an empty string or
      dict has none; anything else fails on `len` or on `rels[0]`. */
  function RenamedRelationships(relationships: Value): (r: Result<Value>)
    ensures r.Ok? <==> || (relationships.List? && NameRelationships(relationships.items).Ok?)
                       || relationships == Str([]) || relationships == Dict(map[])
    ensures r.Ok? && relationships.List? ==> r.value == List(NameRelationships(relationships.items).value)
    ensures r.Ok? && !relationships.List? ==> r.value == relationships
  {
    match relationships
    case List(rels) =>
      var named :- NameRelationships(rels);
      Ok(List(named))
    case Str(s) => if s == [] then Ok(relationships) else Err(TypeError)
    case Dict(m) => if m == map[] then Ok(relationships) else Err(KeyError("0"))
    case _ => Err(TypeError)
  }

  /** Whether the `relationships` entry, if any, can be renamed. */
  predicate RelationshipsConvertible(m: map<string, Value>) {
    "relationships" in m ==>
      match m["relationships"]
      case List(rels) => forall j :: 0 <= j < |rels| ==> Nameable(rels[j])
      case Str(s) => s == []
      case Dict(d) => d == map[]
      case _ => false
  }

  /** Whether a history record has every key the conversion reads. */
  predicate HasApiKeys(m: map<string, Value>) {
    && "accountId" in m && "arn" in m && "configurationItemMD5Hash" in m
    && "version" in m && "configuration" in m
  }

  /** The result of `convert_api_configuration` on a history record: the
      record with the notification-model keys added beside the API-model ones
      and every relationship given a `name`. */
  function Converted(item: Value): (r: Result<Value>)
    ensures r.Ok? <==> item.Dict? && HasApiKeys(item.fields) && RelationshipsConvertible(item.fields)
    ensures !item.Dict? ==> r == Err(AttributeError)
    ensures item.Dict? && "accountId" !in item.fields ==> r == Err(KeyError("accountId"))
    ensures r.Ok? ==> r.value.Dict? && r.value.fields.Keys == item.fields.Keys + RENAMED_KEYS
    ensures r.Ok? ==>
              && r.value.fields["awsAccountId"] == item.fields["accountId"]
              && r.value.fields["ARN"] == item.fields["arn"]
              && r.value.fields["configurationStateMd5Hash"] == item.fields["configurationItemMD5Hash"]
              && r.value.fields["configurationItemVersion"] == item.fields["version"]
    ensures r.Ok? ==>
              forall k :: k in item.fields && k !in RENAMED_KEYS && k != "relationships" ==>
                r.value.fields[k] == item.fields[k]
    ensures r.Ok? && "relationships" in item.fields && !item.fields["relationships"].List? ==>
              r.value.fields["relationships"] == item.fields["relationships"]
    ensures r.Ok? && "relationships" in item.fields && item.fields["relationships"].List? ==>
              var before, after := item.fields["relationships"].items, r.value.fields["relationships"];
              && after.List? && |after.items| == |before|
              && forall j :: 0 <= j < |before| ==> after.items[j] == Named(before[j])
  {
    match item
    case Dict(m) =>
      var accountId :- Index(item, "accountId");
      var m1 := m["awsAccountId" := accountId];
      var arn :- Index(Dict(m1), "arn");
      var m2 := m1["ARN" := arn];
      var hash :- Index(Dict(m2), "configurationItemMD5Hash");
      var m3 := m2["configurationStateMd5Hash" := hash];
      var version :- Index(Dict(m3), "version");
      var m4 := m3["configurationItemVersion" := version];
      var _ :- Index(Dict(m4), "configuration");
      if "relationships" in m4 then
        var renamed :- RenamedRelationships(m4["relationships"]);
        Ok(Dict(m4["relationships" := renamed]))
      else Ok(Dict(m4))
    case _ => Err(AttributeError)
  }

  /** The renaming loop of `convert_api_configuration`, copying
      `relationshipName` to `name` entry by entry. */
  method NameEntries(rels: seq<Value>) returns (r: Result<seq<Value>>)
    ensures r == NameRelationships(rels)
  {
    var entries := rels;
    var i := 0;
    while i < |entries|
      invariant 0 <= i <= |entries| == |rels|
      invariant forall j :: 0 <= j < i ==> Nameable(rels[j]) && entries[j] == Named(rels[j])
      invariant forall j :: i <= j < |rels| ==> entries[j] == rels[j]
    {
      match entries[i] {
        case Dict(e) =>
          if "relationshipName" !in e {
            return Err(KeyError("relationshipName"));
          }
          entries := entries[i := Dict(e["name" := e["relationshipName"]])];
        case _ =>
          return Err(TypeError);
      }
      i := i + 1;
    }
    var named := NameRelationships(rels);
    assert named.Ok?;
    assert named.value == entries;
    return Ok(entries);
  }

  /** `convert_api_configuration`, updating the record key by key and the
      relationship list entry by entry, as the source does in place. */
  method ConvertApiConfiguration(item: Value) returns (r: Result<Value>)
    ensures r == Converted(item)
  {
    if !item.Dict? {
      return Err(AttributeError);
    }
    var m := item.fields;
    if "accountId" !in m { return Err(KeyError("accountId")); }
    m := m["awsAccountId" := m["accountId"]];
    if "arn" !in m { return Err(KeyError("arn")); }
    m := m["ARN" := m["arn"]];
    if "configurationItemMD5Hash" !in m { return Err(KeyError("configurationItemMD5Hash")); }
    m := m["configurationStateMd5Hash" := m["configurationItemMD5Hash"]];
    if "version" !in m { return Err(KeyError("version")); }
    m := m["configurationItemVersion" := m["version"]];
    if "configuration" !in m { return Err(KeyError("configuration")); }
    if "relationships" in m {
      match m["relationships"]
      case List(rels) =>
        var named := NameEntries(rels);
        if named.Err? {
          return Err(named.error);
        }
        m := m["relationships" := List(named.value)];
      case Str(s) =>
        if s != [] { return Err(TypeError); }
        assert m["relationships" := m["relationships"]] == m;
      case Dict(d) =>
        if d != map[] { return Err(KeyError("0")); }
        assert m["relationships" := m["relationships"]] == m;
      case _ =>
        return Err(TypeError);
    }
    return Ok(Dict(m));
  }

  // ---------------------------------------------------------------------
  // get_configuration_item

  /** The first half of `get_configuration_item`: validate the invoking event
      and decide whether it is an oversized notification. */
  function NotificationShape(invokingEvent: Value): (r: Result<bool>)
    ensures !Truthy(invokingEvent) ==> r == Err(NotDefined("invokingEvent"))
    ensures r.Ok? ==> invokingEvent.Dict? && "messageType" in invokingEvent.fields
                      && Truthy(invokingEvent.fields["messageType"])
    ensures r.Ok? ==> (r.value <==> invokingEvent.fields["messageType"] == Str(OVERSIZED_NOTIFICATION))
  {
    var _ :- CheckDefined(invokingEvent, "invokingEvent");
    var messageType :- Index(invokingEvent, "messageType");
    IsOversizedChangedNotification(messageType)
  }

  /** The history lookup an oversized notification asks for: the single
      latest record of the summarised resource at its capture time. */
  function HistoryQuery(invokingEvent: Value): (r: Result<Call>)
    ensures r.Ok? ==>
              && invokingEvent.Dict? && "configurationItemSummary" in invokingEvent.fields
              && var summary := invokingEvent.fields["configurationItemSummary"];
              && summary.Dict? && Truthy(summary)
              && "resourceType" in summary.fields && "resourceId" in summary.fields
              && "configurationItemCaptureTime" in summary.fields
              && r.value == GetHistory(summary.fields["resourceType"], summary.fields["resourceId"],
                                       summary.fields["configurationItemCaptureTime"], 1)
  {
    var summary :- Index(invokingEvent, "configurationItemSummary");
    var _ :- CheckDefined(summary, "configurationItemSummary");
    var resourceType :- Index(summary, "resourceType");
    var resourceId :- Index(summary, "resourceId");
    var captureTime :- Index(summary, "configurationItemCaptureTime");
    Ok(GetHistory(resourceType, resourceId, captureTime, 1))
  }

  /** `result['configurationItems'][0]`, converted to the notification model. */
  function FetchedItem(historyResponse: Value): (r: Result<Value>)
    ensures historyResponse.Dict? && "configurationItems" !in historyResponse.fields ==>
              r == Err(KeyError("configurationItems"))
    ensures (&& historyResponse.Dict? && "configurationItems" in historyResponse.fields
             && historyResponse.fields["configurationItems"] == List([])) ==>
              r == Err(IndexError)
    ensures (&& historyResponse.Dict? && "configurationItems" in historyResponse.fields
             && historyResponse.fields["configurationItems"].List?
             && historyResponse.fields["configurationItems"].items != []) ==>
              r == Converted(historyResponse.fields["configurationItems"].items[0])
  {
    var items :- Index(historyResponse, "configurationItems");
    var item :- First(items);
    Converted(item)
  }

  /** `get_configuration_item`, with the one history lookup it may send. */
  function SelectItem(invokingEvent: Value, historyResponse: Value): (r: Run<Value>)
    ensures NotificationShape(invokingEvent).Err? ==> r == Run(NotificationShape(invokingEvent).PropagateFailure(), [])
    ensures NotificationShape(invokingEvent) == Ok(false) ==>
              && r.calls == []
              && r.outcome == (var embedded :- Index(invokingEvent, "configurationItem");
                               CheckDefined(embedded, "configurationItem"))
    ensures |r.calls| <= 1
    ensures r.calls != [] ==> NotificationShape(invokingEvent) == Ok(true) && r.outcome == FetchedItem(historyResponse)
    ensures r.calls != [] ==> HistoryQuery(invokingEvent).Ok? && r.calls == [HistoryQuery(invokingEvent).value]
    ensures NotificationShape(invokingEvent) == Ok(true) && HistoryQuery(invokingEvent).Ok? ==> |r.calls| == 1
    ensures NotificationShape(invokingEvent) == Ok(true) && HistoryQuery(invokingEvent).Err? ==>
              r == Run(HistoryQuery(invokingEvent).PropagateFailure(), [])
    ensures r.outcome.Ok? ==> Truthy(r.outcome.value)
  {
    match NotificationShape(invokingEvent)
    case Err(e) => Run(Err(e), [])
    case Ok(false) =>
      var embedded := Index(invokingEvent, "configurationItem");
      Run(if embedded.Err? then embedded else CheckDefined(embedded.value, "configurationItem"), [])
    case Ok(true) =>
      match HistoryQuery(invokingEvent)
      case Err(e) => Run(Err(e), [])
      case Ok(query) => Run(FetchedItem(historyResponse), [query])
  }

  /** `get_configuration_item`, sending the history lookup through the
      Config client when the notification is oversized. */
  method GetConfigurationItem(invokingEvent: Value, aws: Aws) returns (r: Result<Value>)
    modifies aws
    ensures r == SelectItem(invokingEvent, aws.historyResponse).outcome
    ensures aws.calls == old(aws.calls) + SelectItem(invokingEvent, aws.historyResponse).calls
  {
    var oversized := NotificationShape(invokingEvent);
    if oversized.Err? {
      return Err(oversized.error);
    }
    if !oversized.value {
      var embedded := Index(invokingEvent, "configurationItem");
      if embedded.Err? {
        return embedded;
      }
      return CheckDefined(embedded.value, "configurationItem");
    }
    var query := HistoryQuery(invokingEvent);
    if query.Err? {
      return Err(query.error);
    }
    var response := aws.GetResourceConfigHistory(query.value.resourceType, query.value.resourceId,
                                                 query.value.laterTime, 1);
    var items := Index(response, "configurationItems");
    if items.Err? {
      return Err(items.error);
    }
    var item := First(items.value);
    if item.Err? {
      return item;
    }
    r := ConvertApiConfiguration(item.value);
  }

  // ---------------------------------------------------------------------
  // is_applicable

  /** `is_applicable`: fails open when either argument is falsy; otherwise a
      resource is in scope when it exists and has not left the rule's scope. */
  function IsApplicable(item: Value, event: Value): (r: Result<bool>)
    ensures !Truthy(item) || !Truthy(event) ==> r == Ok(true)
    ensures Truthy(item) && Truthy(event) ==>
              (r.Ok? <==> item.Dict? && "configurationItemStatus" in item.fields
                          && event.Dict? && "eventLeftScope" in event.fields)
    ensures Truthy(item) && Truthy(event) && r.Ok? ==>
              (r.value <==> item.fields["configurationItemStatus"] in {Str("OK"), Str("ResourceDiscovered")}
                            && !Truthy(event.fields["eventLeftScope"]))
  {
    if !Truthy(item) || !Truthy(event) then Ok(true)
    else
      var status :- Index(item, "configurationItemStatus");
      var eventLeftScope :- Index(event, "eventLeftScope");
      Ok((status == Str("OK") || status == Str("ResourceDiscovered")) && !Truthy(eventLeftScope))
  }

  /** A deleted resource is never evaluated when the event is truthy: the
      filter either says no or raises on a missing `eventLeftScope`. (A
      falsy event makes the filter answer yes for any item.) */
  lemma DeletedIsNeverApplicable(item: Value, event: Value)
    requires item.Dict?
    requires "configurationItemStatus" in item.fields
    requires item.fields["configurationItemStatus"] == Str("ResourceDeleted")
    requires Truthy(event)
    ensures IsApplicable(item, event) != Ok(true)
  {
    assert Truthy(item) by {
      assert "configurationItemStatus" in item.fields.Keys;
    }
  }

  // ---------------------------------------------------------------------
  // get_assume_role_credentials: the error-scrubbing rule

  /** The `Code` and `Message` of a botocore `ClientError` response. */
  datatype ClientError = ClientError(code: string, message: string)

  const ASSUME_ROLE_DENIED := "AWS Config does not have permission to assume the IAM role."
  const INTERNAL_ERROR := "InternalError"

  /** The rewrite applied to a failed `assume_role` before it is re-raised. */
  function ScrubAssumeRoleError(e: ClientError): (r: ClientError)
    ensures r.message == ASSUME_ROLE_DENIED || r == ClientError(INTERNAL_ERROR, INTERNAL_ERROR)
    ensures r.message == ASSUME_ROLE_DENIED <==> IsSubstring("AccessDenied", e.code)
    ensures IsSubstring("AccessDenied", e.code) ==> r == ClientError(e.code, ASSUME_ROLE_DENIED)
  {
    if IsSubstring("AccessDenied", e.code) then ClientError(e.code, ASSUME_ROLE_DENIED)
    else ClientError(INTERNAL_ERROR, INTERNAL_ERROR)
  }

  /** The scrubbed error reveals nothing of the original message, and the
      original code only when it already names an access denial. */
  lemma ScrubHidesDetail(e1: ClientError, e2: ClientError)
    requires e1.code == e2.code || (!IsSubstring("AccessDenied", e1.code) && !IsSubstring("AccessDenied", e2.code))
    ensures ScrubAssumeRoleError(e1) == ScrubAssumeRoleError(e2)
  {
  }

  /** Scrubbing an already scrubbed error changes nothing. */
  lemma ScrubIsIdempotent(e: ClientError)
    ensures ScrubAssumeRoleError(ScrubAssumeRoleError(e)) == ScrubAssumeRoleError(e)
  {
    NotAccessDenied();
  }

  /** The generic code does not contain "AccessDenied". */
  lemma NotAccessDenied()
    ensures !IsSubstring("AccessDenied", INTERNAL_ERROR)
  {
    assert INTERNAL_ERROR[0] != 'A' && INTERNAL_ERROR[1..][0] != 'A';
    LongerNeverOccurs("AccessDenied", INTERNAL_ERROR[1..][1..]);
  }
}

=== FILE: dashboard_text.dfy ===
/** The text handling of the GuardDuty notifier
    (activity-4/guard-duty-check.py): the decimal digit runs that
    `re.findall('[0-9]+', body)` returns, `int()` and `str()` on them, and the
    `re.sub('<Label>:[0-9]+', '<Label>:<count>', body)` rewrites of the
    dashboard body. Strings are sequences of characters; `[0-9]` matches the
    ASCII digits only. */
module DashboardText {

  predicate IsDigit(c: char) {
    '0' <= c <= '9'
  }

  predicate AllDigits(s: string) {
    forall i :: 0 <= i < |s| ==> IsDigit(s[i])
  }

  /** The length of the run of digits `s` starts with. */
  function LeadingDigits(s: string): (n: nat)
    ensures n <= |s| && AllDigits(s[..n])
    ensures n < |s| ==> !IsDigit(s[n])
    decreases |s|
  {
    if s != [] && IsDigit(s[0]) then
      var n := 1 + LeadingDigits(s[1..]);
      assert s[..n] == [s[0]] + s[1..][..n - 1];
      n
    else 0
  }

  /** `re.findall('[0-9]+', s)`: the maximal runs of digits, left to right. */
  function DigitRuns(s: string): (runs: seq<string>)
    ensures forall i :: 0 <= i < |runs| ==> runs[i] != [] && AllDigits(runs[i])
    decreases |s|
  {
    if s == [] then []
    else if IsDigit(s[0]) then
      var n := LeadingDigits(s);
      [s[..n]] + DigitRuns(s[n..])
    else DigitRuns(s[1..])
  }

  /** The value of one digit. */
  function DigitValue(c: char): nat
    requires IsDigit(c)
  {
    c as int - '0' as int
  }

  /** The digit for a value below ten. */
  function Digit(d: nat): (c: char)
    requires d < 10
    ensures IsDigit(c) && DigitValue(c) == d
  {
    ('0' as int + d) as char
  }

  /** `int(s)` on a non-empty run of digits; leading zeros are allowed. */
  function DecimalValue(s: string): nat
    requires AllDigits(s)
    decreases |s|
  {
    if s == [] then 0 else DecimalValue(s[..|s| - 1]) * 10 + DigitValue(s[|s| - 1])
  }

  /** `str(n)` for a non-negative integer: no sign and no leading zero. */
  function DecimalString(n: nat): (s: string)
    ensures s != [] && AllDigits(s)
    ensures |s| > 1 ==> s[0] != '0'
    decreases n
  {
    (if n < 10 then [] else DecimalString(n / 10)) + [Digit(n % 10)]
  }

  /** `int(str(n)) == n`. */
  lemma {:induction false} DecimalRoundTrip(n: nat)
    ensures DecimalValue(DecimalString(n)) == n
    decreases n
  {
    var s := DecimalString(n);
    assert s[..|s| - 1] == if n < 10 then [] else DecimalString(n / 10);
    if n >= 10 {
      DecimalRoundTrip(n / 10);
    }
  }

  /** A run of digits followed by nothing or by a non-digit is one whole run. */
  lemma {:induction false} LeadingDigitsOfRun(d: string, t: string)
    requires AllDigits(d)
    requires t == [] || !IsDigit(t[0])
    ensures LeadingDigits(d + t) == |d|
    decreases |d|
  {
    if d == [] {
      assert d + t == t;
    } else {
      assert (d + t)[1..] == d[1..] + t;
      LeadingDigitsOfRun(d[1..], t);
    }
  }

  /** Text without digits contributes no run. */
  lemma {:induction false} DigitRunsSkipText(p: string, t: string)
    requires forall i :: 0 <= i < |p| ==> !IsDigit(p[i])
    ensures DigitRuns(p + t) == DigitRuns(t)
    decreases |p|
  {
    if p == [] {
      assert p + t == t;
    } else {
      assert (p + t)[1..] == p[1..] + t;
      DigitRunsSkipText(p[1..], t);
    }
  }

  /** A run of digits followed by nothing or by a non-digit is the next run. */
  lemma DigitRunsTakeRun(d: string, t: string)
    requires d != [] && AllDigits(d)
    requires t == [] || !IsDigit(t[0])
    ensures DigitRuns(d + t) == [d] + DigitRuns(t)
  {
    LeadingDigitsOfRun(d, t);
    assert (d + t)[..|d|] == d && (d + t)[|d|..] == t;
  }

  /** `re.findall('[0-9]+', str(n))` is `[str(n)]`. */
  lemma DigitRunsOfNumber(n: nat)
    ensures DigitRuns(DecimalString(n)) == [DecimalString(n)]
  {
    var s := DecimalString(n);
    DigitRunsTakeRun(s, []);
    assert s + [] == s;
  }

  // ---------------------------------------------------------------------
  // Texts laid out as numbers between digit-free separators

  /** Whether `p` holds no digit. */
  predicate DigitFree(p: string) {
    forall i :: 0 <= i < |p| ==> !IsDigit(p[i])
  }

  /** `seps[0] + str(nums[0]) + seps[1] + ... + str(nums[k-1]) + seps[k]`. */
  function Layout(seps: seq<string>, nums: seq<nat>): string
    requires |seps| == |nums| + 1
    decreases |nums|
  {
    if nums == [] then seps[0]
    else seps[0] + DecimalString(nums[0]) + Layout(seps[1..], nums[1..])
  }

  /** Whether the separators hold no digit and keep adjacent numbers apart. */
  predicate Separating(seps: seq<string>, nums: seq<nat>) {
    && |seps| == |nums| + 1
    && (forall i :: 0 <= i < |seps| ==> DigitFree(seps[i]))
    && (forall i :: 0 < i < |nums| ==> seps[i] != [])
  }

  /** The digit runs of a laid-out text are exactly its numbers, written out:
      `re.findall` recovers what `str` wrote. */
  lemma {:induction false} DigitRunsOfLayout(seps: seq<string>, nums: seq<nat>)
    requires Separating(seps, nums)
    ensures DigitRuns(Layout(seps, nums)) == seq(|nums|, i requires 0 <= i < |nums| => DecimalString(nums[i]))
    decreases |nums|
  {
    if nums == [] {
      DigitRunsSkipText(seps[0], []);
      assert seps[0] + [] == seps[0];
    } else {
      var rest := Layout(seps[1..], nums[1..]);
      DigitRunsOfLayout(seps[1..], nums[1..]);
      assert rest == [] || !IsDigit(rest[0]) by {
        if |nums| > 1 {
          assert seps[1..][0] == seps[1] && seps[1] != [];
          assert rest == seps[1] + DecimalString(nums[1]) + Layout(seps[2..], nums[2..]);
          assert rest[0] == seps[1][0];
        } else {
          assert rest == seps[1];
        }
      }
      DigitRunsTakeRun(DecimalString(nums[0]), rest);
      assert seps[0] + DecimalString(nums[0]) + rest == seps[0] + (DecimalString(nums[0]) + rest);
      DigitRunsSkipText(seps[0], DecimalString(nums[0]) + rest);
    }
  }

  // ---------------------------------------------------------------------
  // re.sub('<label>[0-9]+', <replacement>, s)

  /** Whether a token `label<digits>` starts `s`. */
  predicate MatchAt(key: string, s: string) {
    |key| < |s| && s[..|key|] == key && IsDigit(s[|key|])
  }

  /** The length of the token that starts `s`: the label and its whole digit
      run (the `+` is greedy). */
  function TokenLength(key: string, s: string): (n: nat)
    requires MatchAt(key, s)
    ensures |key| < n <= |s|
  {
    |key| + LeadingDigits(s[|key|..])
  }

  /** The digits of the token that starts `s`. */
  function TokenDigits(key: string, s: string): string
    requires MatchAt(key, s)
  {
    s[|key|..TokenLength(key, s)]
  }

  /** `re.sub`: scanning left to right, every token is replaced by `rep` and
      the scan resumes after it; every other character is copied. */
  function Sub(key: string, rep: string, s: string): string
    decreases |s|
  {
    if s == [] then []
    else if MatchAt(key, s) then rep + Sub(key, rep, s[TokenLength(key, s)..])
    else [s[0]] + Sub(key, rep, s[1..])
  }

  /** A label of the dashboard text: non-empty, starting with a non-digit
      that occurs nowhere else in it, so that no token starts inside one. */
  predicate IsLabel(key: string) {
    key != [] && !IsDigit(key[0]) && forall i :: 1 <= i < |key| ==> key[i] != key[0]
  }

  /** Two labels neither of which can start inside the other. */
  predicate Separate(a: string, b: string) {
    a != [] && b != [] && a[0] !in b && b[0] !in a
  }

  /** Every token of `label` in `s` carries exactly the digits `d`. */
  predicate Normal(key: string, d: string, s: string) {
    forall i :: 0 <= i < |s| && MatchAt(key, s[i..]) ==> TokenDigits(key, s[i..]) == d
  }

  /** Text with no token starting in its first `k` positions is copied. */
  lemma {:induction false} SubKeepsPrefix(key: string, rep: string, t: string, k: nat)
    requires k <= |t|
    requires forall q :: 0 <= q < k ==> !MatchAt(key, t[q..])
    ensures Sub(key, rep, t) == t[..k] + Sub(key, rep, t[k..])
    decreases k
  {
    if k > 0 {
      assert !MatchAt(key, t[0..]);
      assert t[0..] == t;
      forall q | 0 <= q < k - 1 ensures !MatchAt(key, t[1..][q..]) {
        assert t[1..][q..] == t[q + 1..];
      }
      SubKeepsPrefix(key, rep, t[1..], k - 1);
      assert t[1..][k - 1..] == t[k..];
      assert t[..k] == [t[0]] + t[1..][..k - 1];
    }
  }

  /** Text with no token at all is left unchanged. */
  lemma SubWithoutToken(key: string, rep: string, s: string)
    requires forall q :: 0 <= q < |s| ==> !MatchAt(key, s[q..])
    ensures Sub(key, rep, s) == s
  {
    SubKeepsPrefix(key, rep, s, |s|);
    assert s[|s|..] == [] && s[..|s|] == s;
  }

  /** The first token among the first `m` positions, or `m` if there is none. */
  lemma FirstToken(key: string, t: string, m: nat) returns (p: nat)
    requires m <= |t|
    ensures p <= m && (p < m ==> MatchAt(key, t[p..]))
    ensures forall q :: 0 <= q < p ==> !MatchAt(key, t[q..])
  {
    p := 0;
    while p < m && !MatchAt(key, t[p..])
      invariant p <= m
      invariant forall q :: 0 <= q < p ==> !MatchAt(key, t[q..])
    {
      p := p + 1;
    }
  }

  /** A replacement that starts with a non-digit never lets the text after it
      start with a digit. */
  lemma SubStartsWithNonDigit(key: string, d: string, t: string)
    requires key != [] && !IsDigit(key[0])
    requires t == [] || !IsDigit(t[0])
    ensures var r := Sub(key, key + d, t);
            r == [] || !IsDigit(r[0])
  {
  }

  /** Rewriting the tokens of `b` after a first character that starts no
      token of `a` or `b` does not make a token of `a` start there. */
  lemma NoTokenCreated(a: string, b: string, d: string, s: string)
    requires IsLabel(a) && IsLabel(b) && (a == b || Separate(a, b))
    requires s != [] && !MatchAt(a, s) && !MatchAt(b, s)
    ensures !MatchAt(a, [s[0]] + Sub(b, b + d, s[1..]))
  {
    var t := s[1..];
    var y := Sub(b, b + d, t);
    var m := if |a| <= |t| then |a| else |t|;
    var p := FirstToken(b, t, m);
    SubKeepsPrefix(b, b + d, t, p);
    if p < m {
      SubOfTokenStart(b, d, t[p..]);
      TokenStartAfterFirst(a, b, s, y, p, Sub(b, b + d, t[p..]));
    } else if m == |a| {
      PrefixAfterFirst(a, s, y);
      PrefixDecidesMatch(a, [s[0]] + y, s);
    } else {
      SubWithoutToken(b, b + d, t);
      assert [s[0]] + t == s;
    }
  }

  /** The rewrite of a text starting with a token starts with the
      replacement's first character. */
  lemma SubOfTokenStart(key: string, d: string, u: string)
    requires key != [] && MatchAt(key, u)
    ensures Sub(key, key + d, u) != [] && Sub(key, key + d, u)[0] == key[0]
  {
  }

  /** Text whose first `p` characters after the first are kept, followed by
      the start of a label `b`, cannot start with a token of `a`. */
  lemma TokenStartAfterFirst(a: string, b: string, s: string, y: string, p: nat, u: string)
    requires IsLabel(a) && IsLabel(b) && (a == b || Separate(a, b))
    requires s != [] && p < |a| && p <= |s| - 1
    requires y == s[1..][..p] + u && u != [] && u[0] == b[0]
    ensures !MatchAt(a, [s[0]] + y)
  {
    var r := [s[0]] + y;
    assert r[p + 1] == u[0];
    TokenStartBlocksMatch(a, b, r, p + 1);
  }

  /** Keeping the first `|a|` characters after the first keeps the first
      `|a| + 1` characters. */
  lemma PrefixAfterFirst(a: string, s: string, y: string)
    requires s != [] && |a| <= |s| - 1 && |a| <= |y| && y[..|a|] == s[1..][..|a|]
    ensures |[s[0]] + y| > |a| && ([s[0]] + y)[..|a| + 1] == s[..|a| + 1]
  {
    var r := [s[0]] + y;
    forall i | 0 <= i < |a| + 1 ensures r[i] == s[i] {
      if i > 0 {
        assert r[i] == y[..|a|][i - 1];
      }
    }
  }

  /** Whether a token of `key` starts a text depends only on its first
      `|key| + 1` characters. */
  lemma PrefixDecidesMatch(key: string, r: string, s: string)
    requires |r| > |key| && |s| > |key| && r[..|key| + 1] == s[..|key| + 1]
    ensures MatchAt(key, r) == MatchAt(key, s)
  {
    assert r[..|key|] == r[..|key| + 1][..|key|];
    assert s[..|key|] == s[..|key| + 1][..|key|];
    assert r[|key|] == r[..|key| + 1][|key|];
    assert s[|key|] == s[..|key| + 1][|key|];
  }

  /** The first character of a label `b` at a position `q` in `1..|a|` of `r`
      rules out a token of `a` at the start of `r`. */
  lemma TokenStartBlocksMatch(a: string, b: string, r: string, q: nat)
    requires IsLabel(a) && IsLabel(b) && (a == b || Separate(a, b))
    requires 0 < q <= |a| && q < |r| && r[q] == b[0]
    ensures !MatchAt(a, r)
  {
    if q < |a| {
      assert a[q] != b[0];
      assert |r| > |a| ==> r[..|a|][q] == r[q];
    }
  }

  /** The suffix of a normal text is normal. */
  lemma NormalSuffix(key: string, d: string, s: string, k: nat)
    requires k <= |s| && Normal(key, d, s)
    ensures Normal(key, d, s[k..])
  {
    forall i | 0 <= i < |s[k..]| && MatchAt(key, s[k..][i..])
      ensures TokenDigits(key, s[k..][i..]) == d
    {
      assert s[k..][i..] == s[k + i..];
    }
  }

  /** When every token already carries `d`, the rewrite changes nothing. */
  lemma {:induction false} NormalIsFixed(key: string, d: string, s: string)
    requires Normal(key, d, s)
    ensures Sub(key, key + d, s) == s
    decreases |s|
  {
    if s != [] {
      if MatchAt(key, s) {
        var k := TokenLength(key, s);
        NormalTokenShape(key, d, s);
        NormalSuffix(key, d, s, k);
        NormalIsFixed(key, d, s[k..]);
        assert s == s[..k] + s[k..];
      } else {
        NormalSuffix(key, d, s, 1);
        NormalIsFixed(key, d, s[1..]);
      }
    }
  }

  /** `label + d + y` with `y` normal and not starting with a digit is
      normal: its first token is the one just written and no token starts
      inside it. */
  lemma NormalAfterToken(key: string, d: string, y: string)
    requires IsLabel(key) && AllDigits(d)
    requires y == [] || !IsDigit(y[0])
    requires Normal(key, d, y)
    ensures Normal(key, d, key + d + y)
  {
    var r := key + d + y;
    forall i | 0 < i < |key| + |d| ensures r[i] != key[0] {
      if i < |key| {
        assert r[i] == key[i];
      } else {
        assert r[i] == d[i - |key|];
      }
    }
    NoTokenWithoutFirstChar(key, r, 1, |key| + |d|);
    forall i | 0 <= i < |r| && MatchAt(key, r[i..]) ensures TokenDigits(key, r[i..]) == d {
      if i == 0 {
        assert r[0..] == r;
        assert r[|key|..] == d + y;
        LeadingDigitsOfRun(d, y);
      } else {
        assert r[i..] == y[i - |key| - |d|..];
      }
    }
  }

  /** No token starts where the first character of its label is absent. */
  lemma NoTokenWithoutFirstChar(key: string, r: string, lo: nat, hi: nat)
    requires key != [] && lo <= hi <= |r|
    requires forall i :: lo <= i < hi ==> r[i] != key[0]
    ensures forall i :: lo <= i < hi ==> !MatchAt(key, r[i..])
  {
    forall i | lo <= i < hi ensures !MatchAt(key, r[i..]) {
      assert r[i..][0] == r[i];
    }
  }

  /** After the rewrite every token carries the replacement's digits. */
  lemma {:induction false} SubIsNormal(key: string, d: string, s: string)
    requires IsLabel(key) && AllDigits(d)
    ensures Normal(key, d, Sub(key, key + d, s))
    decreases |s|
  {
    if s != [] {
      if MatchAt(key, s) {
        var rest := s[TokenLength(key, s)..];
        assert rest == s[|key|..][LeadingDigits(s[|key|..])..];
        SubIsNormal(key, d, rest);
        SubStartsWithNonDigit(key, d, rest);
        NormalAfterToken(key, d, Sub(key, key + d, rest));
      } else {
        var y := Sub(key, key + d, s[1..]);
        SubIsNormal(key, d, s[1..]);
        NoTokenCreated(key, key, d, s);
        var r := [s[0]] + y;
        forall i | 0 <= i < |r| && MatchAt(key, r[i..]) ensures TokenDigits(key, r[i..]) == d {
          assert i != 0 by {
            assert r[0..] == r;
          }
          assert r[i..] == y[i - 1..];
        }
      }
    }
  }

  /** The rewrite leaves a text unchanged exactly when every token in it
      already carries the replacement's digits. */
  lemma SubFixesExactlyNormal(key: string, d: string, s: string)
    requires IsLabel(key) && AllDigits(d)
    ensures Sub(key, key + d, s) == s <==> Normal(key, d, s)
  {
    SubIsNormal(key, d, s);
    if Normal(key, d, s) {
      NormalIsFixed(key, d, s);
    }
  }

  /** Rewriting twice with the same digits is rewriting once. */
  lemma SubIdempotent(key: string, d: string, s: string)
    requires IsLabel(key) && AllDigits(d)
    ensures Sub(key, key + d, Sub(key, key + d, s)) == Sub(key, key + d, s)
  {
    SubIsNormal(key, d, s);
    NormalIsFixed(key, d, Sub(key, key + d, s));
  }

  /** Only the digits of tokens change: deleting the token digits before or
      after the rewrite gives the same text. */
  lemma {:induction false} SubKeepsSkeleton(key: string, d: string, s: string)
    requires IsLabel(key) && d != [] && AllDigits(d)
    ensures Sub(key, key, Sub(key, key + d, s)) == Sub(key, key, s)
    decreases |s|
  {
    if s != [] {
      if MatchAt(key, s) {
        var rest := s[TokenLength(key, s)..];
        SubKeepsSkeleton(key, d, rest);
        SubStartsWithNonDigit(key, d, rest);
        SubOfToken(key, key, d, Sub(key, key + d, rest));
      } else {
        SubKeepsSkeleton(key, d, s[1..]);
        SkeletonAfterFirst(key, d, s);
      }
    }
  }

  /** The skeleton step at a character that starts no token. */
  lemma SkeletonAfterFirst(key: string, d: string, s: string)
    requires IsLabel(key) && s != [] && !MatchAt(key, s)
    requires Sub(key, key, Sub(key, key + d, s[1..])) == Sub(key, key, s[1..])
    ensures Sub(key, key, Sub(key, key + d, s)) == Sub(key, key, s)
  {
    var y := Sub(key, key + d, s[1..]);
    NoTokenCreated(key, key, d, s);
    assert ([s[0]] + y)[1..] == y && ([s[0]] + y)[0] == s[0];
  }

  /** Rewriting the tokens of another, separate label keeps a text normal. */
  lemma {:induction false} OtherSubKeepsNormal(a: string, da: string, b: string, db: string, s: string)
    requires IsLabel(a) && IsLabel(b) && Separate(a, b)
    requires AllDigits(da) && AllDigits(db)
    requires Normal(a, da, s)
    ensures Normal(a, da, Sub(b, b + db, s))
    decreases |s|
  {
    if s == [] {
      return;
    }
    if MatchAt(b, s) {
      var k := TokenLength(b, s);
      NormalSuffix(a, da, s, k);
      OtherSubKeepsNormal(a, da, b, db, s[k..]);
      var y := Sub(b, b + db, s[k..]);
      var r := b + db + y;
      forall i | 0 <= i < |b| + |db| ensures r[i] != a[0] {
        if i < |b| {
          assert r[i] == b[i];
        } else {
          assert r[i] == db[i - |b|];
        }
      }
      NoTokenWithoutFirstChar(a, r, 0, |b| + |db|);
      forall i | 0 <= i < |r| && MatchAt(a, r[i..]) ensures TokenDigits(a, r[i..]) == da {
        assert r[i..] == y[i - |b| - |db|..];
      }
    } else {
      NormalSuffix(a, da, s, 1);
      OtherSubKeepsNormal(a, da, b, db, s[1..]);
      var y := Sub(b, b + db, s[1..]);
      var r := [s[0]] + y;
      assert Normal(a, da, y);
      if MatchAt(a, s) {
        NormalTokenShape(a, da, s);
        TokenAfterOtherSub(a, da, b, db, s);
      } else {
        NoTokenCreated(a, b, db, s);
      }
      forall i | 0 < i < |r| && MatchAt(a, r[i..]) ensures TokenDigits(a, r[i..]) == da {
        assert r[i..] == y[i - 1..];
      }
      assert r[0..] == r;
    }
  }

  /** A token of `a` at the start of a normal text survives the rewrite of a
      separate label with its digits intact. */
  lemma TokenAfterOtherSub(a: string, da: string, b: string, db: string, s: string)
    requires IsLabel(a) && IsLabel(b) && Separate(a, b)
    requires da != [] && AllDigits(da) && AllDigits(db)
    requires |a| + |da| <= |s| && s[..|a| + |da|] == a + da
    requires s[|a| + |da|..] == [] || !IsDigit(s[|a| + |da|..][0])
    ensures var r := [s[0]] + Sub(b, b + db, s[1..]);
            MatchAt(a, r) && TokenDigits(a, r) == da
  {
    var k := |a| + |da|;
    SubSkipsToken(a, da, b, db, s);
    SubStartsWithNonDigit(b, db, s[k..]);
    TokenKeptAfterFirst(a, da, s, Sub(b, b + db, s[1..]), Sub(b, b + db, s[k..]));
  }

  /** A token whose tail is copied in front of text that does not start with
      a digit is still a token with the same digits. */
  lemma TokenKeptAfterFirst(a: string, da: string, s: string, u: string, y: string)
    requires da != [] && AllDigits(da)
    requires 1 <= |a| + |da| <= |s| && s[..|a| + |da|] == a + da
    requires u == s[1..|a| + |da|] + y
    requires y == [] || !IsDigit(y[0])
    ensures MatchAt(a, [s[0]] + u) && TokenDigits(a, [s[0]] + u) == da
  {
    var k := |a| + |da|;
    ConsSlice(s, k);
    assert [s[0]] + u == ([s[0]] + s[1..k]) + y;
    TokenThenNonDigit(a, da, y);
  }

  /** The first character and the rest of a prefix make the prefix. */
  lemma ConsSlice(s: string, k: nat)
    requires 1 <= k <= |s|
    ensures [s[0]] + s[1..k] == s[..k]
  {
  }

  /** A token at the start of a normal text is the label, then exactly the
      expected digits, then no further digit. */
  lemma NormalTokenShape(key: string, d: string, s: string)
    requires Normal(key, d, s) && MatchAt(key, s)
    ensures var k := TokenLength(key, s);
            && k == |key| + |d| && d != [] && s[..k] == key + d
            && (s[k..] == [] || !IsDigit(s[k..][0]))
  {
    assert s[0..] == s;
    var k := TokenLength(key, s);
    assert s[..k] == s[..|key|] + s[|key|..k];
    assert s[k..] == s[|key|..][LeadingDigits(s[|key|..])..];
  }

  /** Rewriting a separate label copies a token of `a` (without its first
      character) and goes on after it. */
  lemma SubSkipsToken(a: string, da: string, b: string, db: string, s: string)
    requires IsLabel(a) && IsLabel(b) && Separate(a, b) && AllDigits(da)
    requires |a| + |da| <= |s| && s[..|a| + |da|] == a + da
    ensures Sub(b, b + db, s[1..]) == s[1..|a| + |da|] + Sub(b, b + db, s[|a| + |da|..])
  {
    var k := |a| + |da|;
    var t := s[1..];
    forall q | 0 <= q < k - 1 ensures t[q] != b[0] {
      if q + 1 < |a| {
        assert t[q] == s[..k][q + 1] == a[q + 1];
      } else {
        assert t[q] == s[..k][q + 1] == da[q + 1 - |a|];
      }
    }
    NoTokenWithoutFirstChar(b, t, 0, k - 1);
    SubKeepsPrefix(b, b + db, t, k - 1);
    assert t[k - 1..] == s[k..] && t[..k - 1] == s[1..k];
  }

  /** A label, a non-empty run of digits and then no digit make one token
      with exactly those digits. */
  lemma TokenThenNonDigit(key: string, d: string, y: string)
    requires d != [] && AllDigits(d)
    requires y == [] || !IsDigit(y[0])
    ensures MatchAt(key, key + d + y) && TokenDigits(key, key + d + y) == d
  {
    var r := key + d + y;
    assert r[..|key|] == key && r[|key|..] == d + y;
    LeadingDigitsOfRun(d, y);
  }

  // ---------------------------------------------------------------------
  // re.sub on a laid-out text

  /** Whether `p` ends with `key`. */
  predicate EndsWith(p: string, key: string) {
    |key| <= |p| && p[|p| - |key|..] == key
  }

  /** The numbers of a layout once every number whose separator ends with
      `key` has been replaced by `n`. */
  function Relabelled(key: string, n: nat, seps: seq<string>, nums: seq<nat>): (r: seq<nat>)
    requires |seps| == |nums| + 1
    ensures |r| == |nums|
    ensures forall i :: 0 <= i < |nums| ==> r[i] == if EndsWith(seps[i], key) then n else nums[i]
    decreases |nums|
  {
    if nums == [] then []
    else
      var r := [if EndsWith(seps[0], key) then n else nums[0]] + Relabelled(key, n, seps[1..], nums[1..]);
      assert forall i :: 1 <= i < |nums| ==> seps[1..][i - 1] == seps[i];
      r
  }

  /** A laid-out text starting with a separator that is not empty (or with
      no number at all) does not start with a digit. */
  lemma LayoutStart(seps: seq<string>, nums: seq<nat>)
    requires Separating(seps, nums) && (seps[0] != [] || nums == [])
    ensures var s := Layout(seps, nums); s == [] || !IsDigit(s[0])
  {
    if seps[0] != [] {
      if nums != [] {
        assert Layout(seps, nums)[0] == seps[0][0];
      }
    }
  }

  /** No token of a digit-free label starts before a number unless its
      separator ends with the label, right before the number. */
  lemma NoMatchBeforeNumber(key: string, p: string, d: string, t: string, q: nat)
    requires key != [] && DigitFree(key) && DigitFree(p)
    requires d != [] && AllDigits(d)
    requires q < |p| + |d|
    requires q + |key| != |p| || p[q..] != key
    ensures !MatchAt(key, (p + d + t)[q..])
  {
    var s := p + d + t;
    if |key| < |s[q..]| {
      if q >= |p| {
        assert s[q..][..|key|][0] == d[q - |p|];
      } else if q + |key| < |p| {
        assert s[q..][|key|] == p[q + |key|];
      } else if q + |key| > |p| {
        assert s[q..][..|key|][|p| - q] == d[0];
      } else {
        assert s[q..][..|key|] == p[q..];
      }
    }
  }

  /** A whole token is replaced, and the scan resumes right after it. */
  lemma SubOfToken(key: string, rep: string, d: string, rest: string)
    requires d != [] && AllDigits(d)
    requires rest == [] || !IsDigit(rest[0])
    ensures Sub(key, rep, key + d + rest) == rep + Sub(key, rep, rest)
  {
    var t := key + d + rest;
    TokenThenNonDigit(key, d, rest);
    assert t[TokenLength(key, t)..] == rest;
  }

  /** The rewrite copies a separator and the number after it up to the
      first place where a token may start. */
  lemma SubKeepsSeparator(key: string, rep: string, p: string, d: string, rest: string, k: nat)
    requires key != [] && DigitFree(key) && DigitFree(p)
    requires d != [] && AllDigits(d)
    requires k <= |p| + |d|
    requires forall q :: 0 <= q < k ==> q + |key| != |p| || p[q..] != key
    ensures Sub(key, rep, p + d + rest) == (p + d + rest)[..k] + Sub(key, rep, (p + d + rest)[k..])
  {
    var s := p + d + rest;
    forall q | 0 <= q < k ensures !MatchAt(key, s[q..]) {
      NoMatchBeforeNumber(key, p, d, rest, q);
    }
    SubKeepsPrefix(key, rep, s, k);
  }

  /** A number written right after the label is replaced. */
  lemma SubAcrossLabelledNumber(key: string, rep: string, p: string, d: string, rest: string)
    requires key != [] && DigitFree(key) && DigitFree(p) && EndsWith(p, key)
    requires d != [] && AllDigits(d)
    requires rest == [] || !IsDigit(rest[0])
    ensures Sub(key, rep, p + d + rest) == p[..|p| - |key|] + rep + Sub(key, rep, rest)
  {
    var q0 := |p| - |key|;
    calc {
      Sub(key, rep, p + d + rest);
    == { SubKeepsSeparator(key, rep, p, d, rest, q0); }
      (p + d + rest)[..q0] + Sub(key, rep, (p + d + rest)[q0..]);
    == { SplitAtLabel(key, p, d, rest); }
      p[..q0] + Sub(key, rep, key + d + rest);
    == { SubOfToken(key, rep, d, rest); }
      p[..q0] + (rep + Sub(key, rep, rest));
    ==
      p[..q0] + rep + Sub(key, rep, rest);
    }
  }

  /** A text whose separator ends with the label, cut where the label
      starts. */
  lemma SplitAtLabel(key: string, p: string, d: string, rest: string)
    requires EndsWith(p, key)
    ensures (p + d + rest)[..|p| - |key|] == p[..|p| - |key|]
    ensures (p + d + rest)[|p| - |key|..] == key + d + rest
  {
  }

  /** A number written after anything but the label is kept. */
  lemma SubAcrossOtherNumber(key: string, rep: string, p: string, d: string, rest: string)
    requires key != [] && DigitFree(key) && DigitFree(p) && !EndsWith(p, key)
    requires d != [] && AllDigits(d)
    ensures Sub(key, rep, p + d + rest) == p + d + Sub(key, rep, rest)
  {
    var s := p + d + rest;
    var k := |p| + |d|;
    SubKeepsSeparator(key, rep, p, d, rest, k);
    assert s[k..] == rest && s[..k] == p + d;
  }

  /** The separators after the first still separate the numbers after the
      first. */
  lemma SeparatingTail(seps: seq<string>, nums: seq<nat>)
    requires Separating(seps, nums) && nums != []
    ensures Separating(seps[1..], nums[1..])
    ensures seps[1..] != [] && (seps[1..][0] != [] || nums[1..] == [])
  {
    forall i | 0 <= i < |seps[1..]| ensures DigitFree(seps[1..][i]) {
      assert seps[1..][i] == seps[i + 1];
    }
    forall i | 0 < i < |nums[1..]| ensures seps[1..][i] != [] {
      assert seps[1..][i] == seps[i + 1];
    }
  }

  /** A text without a number is kept by the rewrite. */
  lemma SubOfSeparator(key: string, rep: string, p: string)
    requires DigitFree(p)
    ensures Sub(key, rep, p) == p
  {
    forall q | 0 <= q < |p| ensures !MatchAt(key, p[q..]) {
      if |key| < |p[q..]| {
        assert p[q..][|key|] == p[q + |key|];
      }
    }
    SubWithoutToken(key, rep, p);
  }

  /** The first number a relabelling writes, and the rest. */
  lemma LayoutOfRelabelled(key: string, n: nat, seps: seq<string>, nums: seq<nat>)
    requires |seps| == |nums| + 1 && nums != []
    ensures Layout(seps, Relabelled(key, n, seps, nums))
            == seps[0] + DecimalString(if EndsWith(seps[0], key) then n else nums[0])
               + Layout(seps[1..], Relabelled(key, n, seps[1..], nums[1..]))
  {
    var r := Relabelled(key, n, seps, nums);
    var tail := Relabelled(key, n, seps[1..], nums[1..]);
    assert r == [if EndsWith(seps[0], key) then n else nums[0]] + tail;
    assert r[1..] == tail;
  }

  /** The rewrite across one separator and number, the replacement
      written out. */
  lemma SubAcrossNumber(key: string, n: nat, p: string, d: string, rest: string)
    requires key != [] && DigitFree(key) && DigitFree(p)
    requires d != [] && AllDigits(d)
    requires rest == [] || !IsDigit(rest[0])
    ensures Sub(key, key + DecimalString(n), p + d + rest)
            == p + (if EndsWith(p, key) then DecimalString(n) else d) + Sub(key, key + DecimalString(n), rest)
  {
    var rep := key + DecimalString(n);
    if EndsWith(p, key) {
      SubAcrossLabelledNumber(key, rep, p, d, rest);
      var q0 := |p| - |key|;
      assert p[..q0] + key == p;
      assert p[..q0] + rep == p + DecimalString(n);
    } else {
      SubAcrossOtherNumber(key, rep, p, d, rest);
    }
  }

  /** The rewrite of a layout, up to its first number. */
  lemma SubOfLayoutHead(key: string, n: nat, seps: seq<string>, nums: seq<nat>)
    requires Separating(seps, nums) && nums != [] && key != [] && DigitFree(key)
    requires Separating(seps[1..], nums[1..]) && (seps[1..][0] != [] || nums[1..] == [])
    ensures Sub(key, key + DecimalString(n), Layout(seps, nums))
            == seps[0] + DecimalString(if EndsWith(seps[0], key) then n else nums[0])
               + Sub(key, key + DecimalString(n), Layout(seps[1..], nums[1..]))
  {
    var rest := Layout(seps[1..], nums[1..]);
    LayoutStart(seps[1..], nums[1..]);
    assert Layout(seps, nums) == seps[0] + DecimalString(nums[0]) + rest;
    SubAcrossNumber(key, n, seps[0], DecimalString(nums[0]), rest);
  }

  /** Rewriting the tokens of a digit-free label in a laid-out text replaces
      exactly the numbers written right after that label, and keeps the
      layout. */
  lemma {:induction false} SubOfLayout(key: string, n: nat, seps: seq<string>, nums: seq<nat>)
    requires Separating(seps, nums) && key != [] && DigitFree(key)
    ensures Sub(key, key + DecimalString(n), Layout(seps, nums)) == Layout(seps, Relabelled(key, n, seps, nums))
    decreases |nums|
  {
    if nums == [] {
      SubOfSeparator(key, key + DecimalString(n), seps[0]);
    } else {
      SeparatingTail(seps, nums);
      SubOfLayout(key, n, seps[1..], nums[1..]);
      SubOfLayoutHead(key, n, seps, nums);
      LayoutOfRelabelled(key, n, seps, nums);
    }
  }

  // ---------------------------------------------------------------------
  // The three dashboard rewrites

  const HIGH := "High:"
  const MEDIUM := "Medium:"
  const LOW := "Low:"

  /** The body after the `High:`, `Medium:` and `Low:` rewrites, in that
      order. */
  function Rewrite(body: string, high: nat, medium: nat, low: nat): string {
    var afterHigh := Sub(HIGH, HIGH + DecimalString(high), body);
    var afterMedium := Sub(MEDIUM, MEDIUM + DecimalString(medium), afterHigh);
    Sub(LOW, LOW + DecimalString(low), afterMedium)
  }

  /** The three labels are labels, pairwise separate. */
  lemma LabelsAreSeparate()
    ensures IsLabel(HIGH) && IsLabel(MEDIUM) && IsLabel(LOW)
    ensures Separate(HIGH, MEDIUM) && Separate(HIGH, LOW) && Separate(MEDIUM, LOW)
    ensures Separate(MEDIUM, HIGH) && Separate(LOW, HIGH) && Separate(LOW, MEDIUM)
  {
  }

  /** After the rewrite every `High:`, `Medium:` and `Low:` token carries
      the corresponding count. */
  lemma RewriteCarriesCounts(body: string, high: nat, medium: nat, low: nat)
    ensures var r := Rewrite(body, high, medium, low);
            && Normal(HIGH, DecimalString(high), r)
            && Normal(MEDIUM, DecimalString(medium), r)
            && Normal(LOW, DecimalString(low), r)
  {
    LabelsAreSeparate();
    var dh, dm, dl := DecimalString(high), DecimalString(medium), DecimalString(low);
    var afterHigh := Sub(HIGH, HIGH + dh, body);
    var afterMedium := Sub(MEDIUM, MEDIUM + dm, afterHigh);
    SubIsNormal(HIGH, dh, body);
    OtherSubKeepsNormal(HIGH, dh, MEDIUM, dm, afterHigh);
    OtherSubKeepsNormal(HIGH, dh, LOW, dl, afterMedium);
    SubIsNormal(MEDIUM, dm, afterHigh);
    OtherSubKeepsNormal(MEDIUM, dm, LOW, dl, afterMedium);
    SubIsNormal(LOW, dl, afterMedium);
  }

  /** Rewriting the dashboard body a second time with the same counts leaves
      it unchanged. */
  lemma RewriteIdempotent(body: string, high: nat, medium: nat, low: nat)
    ensures Rewrite(Rewrite(body, high, medium, low), high, medium, low) == Rewrite(body, high, medium, low)
  {
    var r := Rewrite(body, high, medium, low);
    RewriteCarriesCounts(body, high, medium, low);
    NormalIsFixed(HIGH, DecimalString(high), r);
    NormalIsFixed(MEDIUM, DecimalString(medium), r);
    NormalIsFixed(LOW, DecimalString(low), r);
  }

  /** A body without any token is written back unchanged. */
  lemma RewriteWithoutTokens(body: string, high: nat, medium: nat, low: nat)
    requires forall q :: 0 <= q < |body| ==>
               !MatchAt(HIGH, body[q..]) && !MatchAt(MEDIUM, body[q..]) && !MatchAt(LOW, body[q..])
    ensures Rewrite(body, high, medium, low) == body
  {
    SubWithoutToken(HIGH, HIGH + DecimalString(high), body);
    SubWithoutToken(MEDIUM, MEDIUM + DecimalString(medium), body);
    SubWithoutToken(LOW, LOW + DecimalString(low), body);
  }

  /** The dashboard body as numbers between separators keeps its layout
      under the rewrite; the numbers after `High:`, `Medium:` and `Low:`
      become the counts. */
  lemma RewriteOfLayout(seps: seq<string>, nums: seq<nat>, high: nat, medium: nat, low: nat)
    requires Separating(seps, nums)
    ensures var afterHigh := Relabelled(HIGH, high, seps, nums);
            var afterMedium := Relabelled(MEDIUM, medium, seps, afterHigh);
            Rewrite(Layout(seps, nums), high, medium, low)
              == Layout(seps, Relabelled(LOW, low, seps, afterMedium))
  {
    assert DigitFree(HIGH) && DigitFree(MEDIUM) && DigitFree(LOW);
    var afterHigh := Relabelled(HIGH, high, seps, nums);
    var afterMedium := Relabelled(MEDIUM, medium, seps, afterHigh);
    SubOfLayout(HIGH, high, seps, nums);
    SubOfLayout(MEDIUM, medium, seps, afterHigh);
    SubOfLayout(LOW, low, seps, afterMedium);
  }

  /** The second-to-last character of a text ending with a label. */
  lemma EndsWithPenultimate(p: string, key: string)
    requires |key| >= 2 && EndsWith(p, key)
    ensures p[|p| - 2] == key[|key| - 2]
  {
    assert p[|p| - |key|..][|key| - 2] == p[|p| - 2];
  }

  /** A separator ends with at most one of the three labels. */
  lemma LabelSuffixesExclusive(p: string)
    ensures EndsWith(p, HIGH) ==> !EndsWith(p, MEDIUM) && !EndsWith(p, LOW)
    ensures EndsWith(p, MEDIUM) ==> !EndsWith(p, LOW)
  {
    if EndsWith(p, HIGH) {
      EndsWithPenultimate(p, HIGH);
      if EndsWith(p, MEDIUM) {
        EndsWithPenultimate(p, MEDIUM);
      }
      if EndsWith(p, LOW) {
        EndsWithPenultimate(p, LOW);
      }
    }
    if EndsWith(p, MEDIUM) && EndsWith(p, LOW) {
      EndsWithPenultimate(p, MEDIUM);
      EndsWithPenultimate(p, LOW);
    }
  }
}

=== FILE: guard_duty.dfy ===
/** The GuardDuty notifier (activity-4/guard-duty-check.py): each finding is
    published to an SNS topic and tallied by severity into three module-level
    counters, which live between invocations in the text of the CloudWatch
    dashboard `Security`. */
module GuardDuty {
  import opened Python
  import opened DashboardText

  const SNS_TOPIC_ARN := "arn:aws:sns:YOUR-REGION:YOUR-ACCT-ID:guard-duty-notifier"
  /** SNS subjects are cut to this many characters. */
  const SUBJECT_LIMIT := 100
  const PUSHED := "Successly pushed message to SNS Topic"
  const DASHBOARD_NAME := "Security"

  /** The severity buckets. */
  datatype Level = High | Medium | Low

  /** A request sent to SNS or CloudWatch. The published message is the event
      itself (its JSON rendering is not modelled). */
  datatype Request =
    | GetDashboard(name: string)
    | Publish(topic: string, subject: string, message: Value)
    | PutDashboard(name: string, body: string)

  /** The high, medium and low severity counters. */
  datatype Counts = Counts(high: nat, medium: nat, low: nat)

  function Total(c: Counts): nat {
    c.high + c.medium + c.low
  }

  /** `event['detail']['title'][:100]`. A title that is not a string is not
      a valid SNS subject, which raises an error other than KeyError. */
  function Subject(event: Value): (r: Result<string>)
    ensures r.Ok? <==> && event.Dict? && "detail" in event.fields
                       && event.fields["detail"].Dict? && "title" in event.fields["detail"].fields
                       && event.fields["detail"].fields["title"].Str?
    ensures r.Ok? ==> var title := event.fields["detail"].fields["title"].s;
                      && |r.value| == (if |title| < SUBJECT_LIMIT then |title| else SUBJECT_LIMIT)
                      && r.value <= title
    ensures event.Dict? && "detail" !in event.fields ==> r == Err(KeyError("detail"))
    ensures (&& event.Dict? && "detail" in event.fields && event.fields["detail"].Dict?
             && "title" !in event.fields["detail"].fields) ==> r == Err(KeyError("title"))
  {
    var detail :- Index(event, "detail");
    var title :- Index(detail, "title");
    if !title.Str? then Err(TypeError)
    else if |title.s| <= SUBJECT_LIMIT then Ok(title.s)
    else Ok(title.s[..SUBJECT_LIMIT])
  }

  /** The bucket of a severity: `severity >= 7` is high, `severity >= 4`
      medium, anything lower low. A boolean compares as 0 or 1; any other
      non-number cannot be compared with an int. */
  function SeverityLevel(severity: Value): (r: Result<Level>)
    ensures r.Ok? <==> severity.Num? || severity.Bool?
    ensures r == Ok(High) <==> severity.Num? && severity.n >= 7.0
    ensures r == Ok(Medium) <==> severity.Num? && 4.0 <= severity.n < 7.0
    ensures r == Ok(Low) <==> (severity.Num? && severity.n < 4.0) || severity.Bool?
  {
    match severity
    case Num(n) => Ok(if n >= 7.0 then High else if n >= 4.0 then Medium else Low)
    case Bool(_) => Ok(Low)
    case _ => Err(TypeError)
  }

  /** The order of the buckets. */
  function Rank(level: Level): nat {
    match level
    case Low => 0
    case Medium => 1
    case High => 2
  }

  /** A higher severity never lands in a lower bucket. */
  lemma SeverityLevelMonotone(x: real, y: real)
    requires x <= y
    ensures Rank(SeverityLevel(Num(x)).value) <= Rank(SeverityLevel(Num(y)).value)
  {
  }

  /** The level of `event['detail']['severity']`. */
  function SeverityOf(event: Value): (r: Result<Level>)
    ensures event.Dict? && "detail" !in event.fields ==> r == Err(KeyError("detail"))
    ensures (&& event.Dict? && "detail" in event.fields && event.fields["detail"].Dict?
             && "severity" !in event.fields["detail"].fields) ==> r == Err(KeyError("severity"))
    ensures r.Ok? ==> && event.Dict? && "detail" in event.fields && event.fields["detail"].Dict?
                      && "severity" in event.fields["detail"].fields
                      && r == SeverityLevel(event.fields["detail"].fields["severity"])
  {
    var detail :- Index(event, "detail");
    var severity :- Index(detail, "severity");
    SeverityLevel(severity)
  }

  /** The counters after one finding of the given level. */
  function Bump(c: Counts, level: Level): (r: Counts)
    ensures r.high >= c.high && r.medium >= c.medium && r.low >= c.low
    ensures Total(r) == Total(c) + 1
    ensures r.high != c.high <==> level == High
    ensures r.medium != c.medium <==> level == Medium
    ensures r.low != c.low <==> level == Low
  {
    match level
    case High => c.(high := c.high + 1)
    case Medium => c.(medium := c.medium + 1)
    case Low => c.(low := c.low + 1)
  }

  /** What one call of `increment_counts_email_finding` does: its result
      (`None` as `Null` when a KeyError was caught), the counters after it,
      and the requests it sent. */
  datatype Tally = Tally(outcome: Result<Value>, counts: Counts, requests: seq<Request>)

  /** A caught KeyError makes the function return `None`; any other error
      propagates. */
  function CatchKeyError(e: PyError): (r: Result<Value>)
    ensures r.Ok? <==> e.KeyError?
    ensures r.Ok? ==> r.value == Null
    ensures r.Err? ==> r.error == e
  {
    if e.KeyError? then Ok(Null) else Err(e)
  }

  /** `increment_counts_email_finding(event)`: publish the finding, then
      count it by severity. */
  function Tallied(event: Value, counts: Counts): (r: Tally)
    ensures r.outcome.Ok? ==> r.outcome.value == Null || r.outcome.value == Str(PUSHED)
    ensures r.outcome != Ok(Str(PUSHED)) ==> r.counts == counts
    ensures r.requests == if Subject(event).Ok? then [Publish(SNS_TOPIC_ARN, Subject(event).value, event)] else []
  {
    match Subject(event)
    case Err(e) => Tally(CatchKeyError(e), counts, [])
    case Ok(subject) =>
      var published := [Publish(SNS_TOPIC_ARN, subject, event)];
      match SeverityOf(event)
      case Err(e) => Tally(CatchKeyError(e), counts, published)
      case Ok(level) => Tally(Ok(Str(PUSHED)), Bump(counts, level), published)
  }

  /** A counted finding was published and moved exactly the counter of its
      severity, by one; every other outcome leaves the counters alone. */
  lemma FindingCountedOnce(event: Value, counts: Counts)
    ensures var r := Tallied(event, counts);
            r.outcome == Ok(Str(PUSHED)) <==> Subject(event).Ok? && SeverityOf(event).Ok?
    ensures var r := Tallied(event, counts);
            r.outcome == Ok(Str(PUSHED)) ==>
              && Total(r.counts) == Total(counts) + 1
              && r.counts == Bump(counts, SeverityOf(event).value)
              && |r.requests| == 1 && r.requests[0].Publish?
    ensures var r := Tallied(event, counts);
            r.outcome != Ok(Str(PUSHED)) ==> Total(r.counts) == Total(counts)
  {
  }

  /** A finding whose `detail`, `title` or `severity` is missing is not
      counted and the function returns `None`; when only the severity is
      missing (the title being a string) the finding has already been
      published. */
  lemma MissingKeyIsCaught(event: Value, counts: Counts)
    requires event.Dict?
    requires "detail" !in event.fields
             || (var detail := event.fields["detail"];
                 && detail.Dict?
                 && ("title" !in detail.fields
                     || ("severity" !in detail.fields && detail.fields["title"].Str?)))
    ensures var r := Tallied(event, counts);
            && r.outcome == Ok(Null) && r.counts == counts
            && (Subject(event).Ok? ==> r.requests == [Publish(SNS_TOPIC_ARN, Subject(event).value, event)])
  {
  }

  /** The outcome of seeding the counters from the dashboard body. */
  datatype Seeding = Seeding(outcome: Result<()>, counts: Counts)

  /** `int(matches_list[4])`, `[5]` and `[6]` assigned one at a time: a body
      with fewer than seven digit runs raises IndexError after seeding the
      counters it could. */
  function Seeded(body: string, counts: Counts): (r: Seeding)
    ensures r.outcome.Ok? <==> |DigitRuns(body)| >= 7
    ensures r.outcome.Err? ==> r.outcome.error == IndexError
    ensures |DigitRuns(body)| > 4 ==> r.counts.high == DecimalValue(DigitRuns(body)[4])
    ensures |DigitRuns(body)| > 5 ==> r.counts.medium == DecimalValue(DigitRuns(body)[5])
    ensures |DigitRuns(body)| > 6 ==> r.counts.low == DecimalValue(DigitRuns(body)[6])
    ensures |DigitRuns(body)| <= 4 ==> r.counts == counts
    ensures |DigitRuns(body)| <= 5 ==> r.counts.medium == counts.medium
    ensures |DigitRuns(body)| <= 6 ==> r.counts.low == counts.low
  {
    var runs := DigitRuns(body);
    if |runs| <= 4 then Seeding(Err(IndexError), counts)
    else
      var high := DecimalValue(runs[4]);
      if |runs| == 5 then Seeding(Err(IndexError), counts.(high := high))
      else
        var medium := DecimalValue(runs[5]);
        if |runs| == 6 then Seeding(Err(IndexError), counts.(high := high, medium := medium))
        else Seeding(Ok(()), Counts(high, medium, DecimalValue(runs[6])))
  }

  /** A body whose numbers are written between digit-free separators seeds
      the counters with its fifth, sixth and seventh numbers. */
  lemma SeedingReadsLayout(seps: seq<string>, nums: seq<nat>, counts: Counts)
    requires Separating(seps, nums) && |nums| >= 7
    ensures Seeded(Layout(seps, nums), counts) == Seeding(Ok(()), Counts(nums[4], nums[5], nums[6]))
  {
    DigitRunsOfLayout(seps, nums);
    DecimalRoundTrip(nums[4]);
    DecimalRoundTrip(nums[5]);
    DecimalRoundTrip(nums[6]);
  }

  /** What one invocation of `lambda_handler` does. */
  datatype Invocation = Invocation(outcome: Result<()>, counts: Counts, requests: seq<Request>)

  /** `lambda_handler(event)` on a dashboard whose body is `body`: seed the
      counters, tally the finding, rewrite the counts into the body and put
      the dashboard back. */
  function Handled(event: Value, body: string, counts: Counts): (r: Invocation)
    ensures r.requests != [] && r.requests[0] == GetDashboard(DASHBOARD_NAME)
    ensures Seeded(body, counts).outcome.Err? ==>
              r == Invocation(Err(IndexError), Seeded(body, counts).counts, [GetDashboard(DASHBOARD_NAME)])
    ensures r.outcome.Ok? <==> Seeded(body, counts).outcome.Ok? && Tallied(event, Seeded(body, counts).counts).outcome.Ok?
    ensures Seeded(body, counts).outcome.Ok? ==> r.counts == Tallied(event, Seeded(body, counts).counts).counts
    ensures r.outcome.Ok? ==>
              r.requests[|r.requests| - 1]
              == PutDashboard(DASHBOARD_NAME, Rewrite(body, r.counts.high, r.counts.medium, r.counts.low))
    ensures r.outcome.Err? ==> forall j :: 0 <= j < |r.requests| ==> !r.requests[j].PutDashboard?
  {
    var fetched := [GetDashboard(DASHBOARD_NAME)];
    var seeded := Seeded(body, counts);
    if seeded.outcome.Err? then Invocation(Err(IndexError), seeded.counts, fetched)
    else
      var tally := Tallied(event, seeded.counts);
      var c := tally.counts;
      if tally.outcome.Err? then Invocation(Err(tally.outcome.error), c, fetched + tally.requests)
      else Invocation(Ok(()), c, fetched + tally.requests
                                  + [PutDashboard(DASHBOARD_NAME, Rewrite(body, c.high, c.medium, c.low))])
  }

  /** A successful invocation puts back a body whose every token carries the
      counter it names, and that rewriting again would not change; the
      counters are the seeded ones plus at most the one finding. */
  lemma HandledWritesCounts(event: Value, body: string, counts: Counts)
    requires Handled(event, body, counts).outcome.Ok?
    ensures var r := Handled(event, body, counts);
            var c := r.counts;
            && Seeded(body, counts).outcome.Ok?
            && Total(Seeded(body, counts).counts) <= Total(c) <= Total(Seeded(body, counts).counts) + 1
            && r.requests[|r.requests| - 1].PutDashboard?
            && var written := r.requests[|r.requests| - 1].body;
            && Normal(HIGH, DecimalString(c.high), written)
            && Normal(MEDIUM, DecimalString(c.medium), written)
            && Normal(LOW, DecimalString(c.low), written)
            && Rewrite(written, c.high, c.medium, c.low) == written
  {
    var c := Handled(event, body, counts).counts;
    FindingCountedOnce(event, Seeded(body, counts).counts);
    RewriteCarriesCounts(body, c.high, c.medium, c.low);
    RewriteIdempotent(body, c.high, c.medium, c.low);
  }

  /** The dashboard keeps the counters between invocations: on a body whose
      fifth, sixth and seventh numbers are written right after `High:`,
      `Medium:` and `Low:`, an invocation starts from those numbers, and the
      body it puts back seeds the next invocation with the counters it ended
      with. */
  lemma DashboardRoundTrip(event: Value, seps: seq<string>, nums: seq<nat>, counts: Counts, next: Counts)
    requires Separating(seps, nums) && |nums| >= 7
    requires EndsWith(seps[4], HIGH) && EndsWith(seps[5], MEDIUM) && EndsWith(seps[6], LOW)
    ensures Seeded(Layout(seps, nums), counts).counts == Counts(nums[4], nums[5], nums[6])
    ensures var r := Handled(event, Layout(seps, nums), counts);
            r.outcome.Ok? ==>
              && r.requests[|r.requests| - 1].PutDashboard?
              && Seeded(r.requests[|r.requests| - 1].body, next) == Seeding(Ok(()), r.counts)
  {
    var body := Layout(seps, nums);
    SeedingReadsLayout(seps, nums, counts);
    var r := Handled(event, body, counts);
    if r.outcome.Ok? {
      var c := r.counts;
      RewriteOfLayout(seps, nums, c.high, c.medium, c.low);
      var afterHigh := Relabelled(HIGH, c.high, seps, nums);
      var afterMedium := Relabelled(MEDIUM, c.medium, seps, afterHigh);
      var written := Relabelled(LOW, c.low, seps, afterMedium);
      LabelSuffixesExclusive(seps[4]);
      LabelSuffixesExclusive(seps[5]);
      LabelSuffixesExclusive(seps[6]);
      assert written[4] == c.high && written[5] == c.medium && written[6] == c.low;
      SeedingReadsLayout(seps, written, next);
    }
  }

  /** The module-level state of the notifier: its three counters and the
      requests sent so far. `dashboardBody` is the text `get_dashboard`
      returns for `Security`. */
  class Notifier {
    var high: nat
    var medium: nat
    var low: nat
    var requests: seq<Request>
    const dashboardBody: string

    /** A fresh Lambda container: every counter starts at zero. */
    constructor (dashboardBody: string)
      ensures Counters() == Counts(0, 0, 0) && requests == []
      ensures this.dashboardBody == dashboardBody
    {
      high, medium, low := 0, 0, 0;
      requests := [];
      this.dashboardBody := dashboardBody;
    }

    function Counters(): Counts
      reads this
    {
      Counts(high, medium, low)
    }

    /** `increment_counts_email_finding(event)`. */
    method IncrementCountsEmailFinding(event: Value) returns (r: Result<Value>)
      modifies this
      ensures r == Tallied(event, old(Counters())).outcome
      ensures Counters() == Tallied(event, old(Counters())).counts
      ensures requests == old(requests) + Tallied(event, old(Counters())).requests
    {
      var subject := Subject(event);
      if subject.Err? {
        return CatchKeyError(subject.error);
      }
      requests := requests + [Publish(SNS_TOPIC_ARN, subject.value, event)];
      var level := SeverityOf(event);
      if level.Err? {
        return CatchKeyError(level.error);
      }
      match level.value {
        case High => high := high + 1;
        case Medium => medium := medium + 1;
        case Low => low := low + 1;
      }
      r := Ok(Str(PUSHED));
    }

    /** `lambda_handler(event, context)`. */
    method LambdaHandler(event: Value) returns (r: Result<()>)
      modifies this
      ensures r == Handled(event, dashboardBody, old(Counters())).outcome
      ensures Counters() == Handled(event, dashboardBody, old(Counters())).counts
      ensures requests == old(requests) + Handled(event, dashboardBody, old(Counters())).requests
    {
      requests := requests + [GetDashboard(DASHBOARD_NAME)];
      var body := dashboardBody;
      var matches := DigitRuns(body);
      if |matches| <= 4 {
        return Err(IndexError);
      }
      high := DecimalValue(matches[4]);
      if |matches| <= 5 {
        return Err(IndexError);
      }
      medium := DecimalValue(matches[5]);
      if |matches| <= 6 {
        return Err(IndexError);
      }
      low := DecimalValue(matches[6]);
      var tallied := IncrementCountsEmailFinding(event);
      if tallied.Err? {
        return Err(tallied.error);
      }
      body := Sub(HIGH, HIGH + DecimalString(high), body);
      body := Sub(MEDIUM, MEDIUM + DecimalString(medium), body);
      body := Sub(LOW, LOW + DecimalString(low), body);
      requests := requests + [PutDashboard(DASHBOARD_NAME, body)];
      r := Ok(());
    }
  }
}

=== FILE: handler.dfy ===
/** The entry point of the EC2 tagging rule (`lambda_handler` in
    activity-1/check-set-tags.py): validate the event, pick the configuration
    item, classify it when it is in scope, and report one evaluation back to
    AWS Config. */
module Handler {
  import opened Python
  import opened Services
  import opened ConfigurationItem
  import opened Compliance

  /** The invoking event and the rule parameters read from the Lambda event;
      the rule parameters default to an empty dict. */
  function ReadEvent(event: Value): (r: Result<(Value, Value)>)
    ensures r.Ok? <==> Truthy(event) && event.Dict? && "invokingEvent" in event.fields
    ensures !Truthy(event) ==> r == Err(NotDefined("event"))
    ensures r.Ok? ==> r.value.0 == event.fields["invokingEvent"]
    ensures r.Ok? ==> r.value.1 == if "ruleParameters" in event.fields then event.fields["ruleParameters"]
                                   else Dict(map[])
  {
    var _ :- CheckDefined(event, "event");
    var invokingEvent :- Index(event, "invokingEvent");
    var ruleParameters := if event.Dict? && "ruleParameters" in event.fields
                          then event.fields["ruleParameters"] else Dict(map[]);
    Ok((invokingEvent, ruleParameters))
  }

  /** The verdict for a selected item: NOT_APPLICABLE unless the item is in
      scope, in which case the classifier decides (and may remediate). */
  function Evaluate(item: Value, event: Value, ruleParameters: Value): (r: Run<Verdict>)
    ensures IsApplicable(item, event).Err? ==> r == Run(IsApplicable(item, event).PropagateFailure(), [])
    ensures IsApplicable(item, event) == Ok(false) ==> r == Run(Ok(NotApplicable), [])
    ensures IsApplicable(item, event) == Ok(true) ==> r == Classify(item, ruleParameters)
    ensures forall j :: 0 <= j < |r.calls| ==> IsRemediation(r.calls[j])
  {
    match IsApplicable(item, event)
    case Err(e) => Run(Err(e), [])
    case Ok(applicable) =>
      if applicable then Classify(item, ruleParameters) else Run(Ok(NotApplicable), [])
  }

  /** The `put_evaluations` request as written: the resource is described by
      the `configurationItem` of the invoking event, whatever item was
      evaluated. */
  function Report(invokingEvent: Value, verdict: Verdict, event: Value): (r: Result<Call>)
    ensures r.Ok? <==> && invokingEvent.Dict? && "configurationItem" in invokingEvent.fields
                       && DescribesResource(invokingEvent.fields["configurationItem"])
                       && event.Dict? && "resultToken" in event.fields
    ensures r.Ok? ==> r.value == PutEvaluations(Described(invokingEvent.fields["configurationItem"], verdict),
                                                event.fields["resultToken"])
    ensures invokingEvent.Dict? && "configurationItem" !in invokingEvent.fields ==>
              r == Err(KeyError("configurationItem"))
  {
    var configurationItem :- Index(invokingEvent, "configurationItem");
    ReportOn(configurationItem, verdict, event)
  }

  /** Whether a configuration item names its resource and capture time. */
  predicate DescribesResource(item: Value) {
    item.Dict? && "resourceType" in item.fields && "resourceId" in item.fields
    && "configurationItemCaptureTime" in item.fields
  }

  /** The evaluation of `item` with the given verdict. */
  function Described(item: Value, verdict: Verdict): Evaluation
    requires DescribesResource(item)
  {
    Evaluation(item.fields["resourceType"], item.fields["resourceId"], verdict,
               item.fields["configurationItemCaptureTime"])
  }

  /** The `put_evaluations` request describing `item`, in the order the
      keyword arguments are evaluated. */
  function ReportOn(item: Value, verdict: Verdict, event: Value): (r: Result<Call>)
    ensures r.Ok? <==> DescribesResource(item) && event.Dict? && "resultToken" in event.fields
    ensures r.Ok? ==> r.value == PutEvaluations(Described(item, verdict), event.fields["resultToken"])
  {
    var resourceType :- Index(item, "resourceType");
    var resourceId :- Index(item, "resourceId");
    var captureTime :- Index(item, "configurationItemCaptureTime");
    var resultToken :- Index(event, "resultToken");
    Ok(PutEvaluations(Evaluation(resourceType, resourceId, verdict, captureTime), resultToken))
  }

  /** How many evaluations a sequence of requests reports. */
  function Reports(calls: seq<Call>): nat {
    if calls == [] then 0 else (if calls[0].PutEvaluations? then 1 else 0) + Reports(calls[1..])
  }

  /** What the handler does once it holds a configuration item: evaluate it,
      then send the report. As written (`reportItem` false) the report
      describes the invoking event's `configurationItem`; the corrected
      handler (`reportItem` true) describes the evaluated item itself. */
  function Respond(invokingEvent: Value, item: Value, event: Value, ruleParameters: Value, reportItem: bool)
    : (r: Run<()>)
    ensures var evaluated := Evaluate(item, event, ruleParameters);
            && (evaluated.outcome.Err? ==> r == Run(evaluated.outcome.PropagateFailure(), evaluated.calls))
            && (r.outcome.Ok? ==> evaluated.outcome.Ok? && |r.calls| == |evaluated.calls| + 1
                                  && r.calls[..|evaluated.calls|] == evaluated.calls
                                  && r.calls[|evaluated.calls|].PutEvaluations?)
            && (r.outcome.Err? ==> r.calls == evaluated.calls)
  {
    var evaluated := Evaluate(item, event, ruleParameters);
    match evaluated.outcome
    case Err(e) => Run(Err(e), evaluated.calls)
    case Ok(verdict) =>
      var put := if reportItem then ReportOn(item, verdict, event) else Report(invokingEvent, verdict, event);
      match put
      case Err(e) => Run(Err(e), evaluated.calls)
      case Ok(request) => Run(Ok(()), evaluated.calls + [request])
  }

  /** The handler up to the choice of report: read the event, select the
      item (with its one history lookup), then respond. */
  function HandleReporting(event: Value, historyResponse: Value, reportItem: bool): (r: Run<()>)
    ensures ReadEvent(event).Err? ==> r == Run(ReadEvent(event).PropagateFailure(), [])
    ensures r.outcome.Ok? ==> SelectedItem(event, historyResponse).Ok?
    ensures SelectedItem(event, historyResponse).Err? ==> r.outcome == SelectedItem(event, historyResponse)
                                                                        .PropagateFailure()
  {
    match ReadEvent(event)
    case Err(e) => Run(Err(e), [])
    case Ok((invokingEvent, ruleParameters)) =>
      var selected := SelectItem(invokingEvent, historyResponse);
      match selected.outcome
      case Err(e) => Run(Err(e), selected.calls)
      case Ok(item) =>
        var responded := Respond(invokingEvent, item, event, ruleParameters, reportItem);
        Run(responded.outcome, selected.calls + responded.calls)
  }

  /** `lambda_handler` as written, with the requests it sends: the history
      lookup, the remediations and finally the evaluation. */
  function Handle(event: Value, historyResponse: Value): (r: Run<()>)
    ensures r.outcome.Ok? ==> && event.Dict? && "invokingEvent" in event.fields
                              && var invokingEvent := event.fields["invokingEvent"];
                              && invokingEvent.Dict? && "configurationItem" in invokingEvent.fields
                              && DescribesResource(invokingEvent.fields["configurationItem"])
  {
    HandleReporting(event, historyResponse, false)
  }

  /** The report the handler evidently intends: describe the item that was
      actually evaluated, which for an oversized notification is the one
      fetched from the configuration history. */
  function HandleCorrected(event: Value, historyResponse: Value): (r: Run<()>)
    ensures r.outcome.Ok? ==> SelectedItem(event, historyResponse).Ok?
                              && DescribesResource(SelectedItem(event, historyResponse).value)
  {
    HandleReporting(event, historyResponse, true)
  }

  /** The configuration item the handler evaluates, when it gets that far. */
  function SelectedItem(event: Value, historyResponse: Value): Result<Value> {
    var (invokingEvent, _) :- ReadEvent(event);
    SelectItem(invokingEvent, historyResponse).outcome
  }

  /** Whether the handler finds an item and the applicability filter lets it
      through. */
  predicate ReachesClassifier(event: Value, historyResponse: Value) {
    var item := SelectedItem(event, historyResponse);
    item.Ok? && IsApplicable(item.value, event) == Ok(true)
  }

  /** Counting reports distributes over concatenation. */
  lemma {:induction false} ReportsOfAppend(a: seq<Call>, b: seq<Call>)
    ensures Reports(a + b) == Reports(a) + Reports(b)
    decreases |a|
  {
    if a != [] {
      assert (a + b)[0] == a[0];
      assert (a + b)[1..] == a[1..] + b;
      ReportsOfAppend(a[1..], b);
    } else {
      assert a + b == b;
    }
  }

  /** Appending logs of requests is associative. */
  lemma AppendIsAssociative(a: seq<Call>, b: seq<Call>, c: seq<Call>)
    ensures a + (b + c) == (a + b) + c
  {
  }

  /** Requests that never report. */
  lemma {:induction false} NoReports(calls: seq<Call>)
    requires forall j :: 0 <= j < |calls| ==> !calls[j].PutEvaluations?
    ensures Reports(calls) == 0
    decreases |calls|
  {
    if calls != [] {
      NoReports(calls[1..]);
    }
  }

  /** Whether every request is a history lookup or a remediation. */
  predicate LookupsAndRemediations(calls: seq<Call>) {
    forall j :: 0 <= j < |calls| ==> calls[j].GetHistory? || IsRemediation(calls[j])
  }

  /** Whether the last request is the report and every earlier one a history
      lookup or a remediation. */
  predicate ReportedLast(calls: seq<Call>) {
    |calls| >= 1 && LookupsAndRemediations(calls[..|calls| - 1]) && calls[|calls| - 1].PutEvaluations?
  }

  /** Everything the handler sends before the report is a history lookup or a
      remediation. */
  lemma RequestsBeforeReport(event: Value, historyResponse: Value, reportItem: bool)
    ensures var r := HandleReporting(event, historyResponse, reportItem);
            && (r.outcome.Err? ==> LookupsAndRemediations(r.calls))
            && (r.outcome.Ok? ==> ReportedLast(r.calls))
  {
    if ReadEvent(event).Ok? {
      var (invokingEvent, ruleParameters) := ReadEvent(event).value;
      var selected := SelectItem(invokingEvent, historyResponse);
      assert LookupsAndRemediations(selected.calls);
      if selected.outcome.Ok? {
        var item := selected.outcome.value;
        var responded := Respond(invokingEvent, item, event, ruleParameters, reportItem);
        RespondShape(invokingEvent, item, event, ruleParameters, reportItem);
        PrependLookups(selected.calls, responded.calls, responded.outcome.Ok?);
      }
    }
  }

  /** Responding sends remediations and then, when it returns, the report. */
  lemma RespondShape(invokingEvent: Value, item: Value, event: Value, ruleParameters: Value, reportItem: bool)
    ensures var r := Respond(invokingEvent, item, event, ruleParameters, reportItem);
            && (r.outcome.Err? ==> LookupsAndRemediations(r.calls))
            && (r.outcome.Ok? ==> ReportedLast(r.calls))
  {
    var evaluated := Evaluate(item, event, ruleParameters);
    assert LookupsAndRemediations(evaluated.calls);
  }

  /** Lookups and remediations in front of a log keep its shape. */
  lemma PrependLookups(a: seq<Call>, c: seq<Call>, ok: bool)
    requires LookupsAndRemediations(a)
    requires ok ==> ReportedLast(c)
    requires !ok ==> LookupsAndRemediations(c)
    ensures ok ==> ReportedLast(a + c)
    ensures !ok ==> LookupsAndRemediations(a + c)
  {
    if ok {
      DropLast(a, c[..|c| - 1], c);
      LookupsAndRemediationsAppend(a, c[..|c| - 1]);
    } else {
      LookupsAndRemediationsAppend(a, c);
    }
  }

  /** Lookups and remediations, appended, are still just those. */
  lemma LookupsAndRemediationsAppend(a: seq<Call>, b: seq<Call>)
    requires LookupsAndRemediations(a) && LookupsAndRemediations(b)
    ensures LookupsAndRemediations(a + b)
  {
    forall j | 0 <= j < |a + b| ensures (a + b)[j].GetHistory? || IsRemediation((a + b)[j]) {
      if j >= |a| {
        assert (a + b)[j] == b[j - |a|];
      }
    }
  }

  /** A log `a` followed by `b` and one more request. */
  lemma DropLast(a: seq<Call>, b: seq<Call>, c: seq<Call>)
    requires |c| == |b| + 1 && c[..|b|] == b
    ensures |a + c| >= 1 && (a + c)[..|a + c| - 1] == a + b && (a + c)[|a + c| - 1] == c[|b|]
  {
    assert (a + c)[..|a + c| - 1] == a + c[..|b|];
  }

  /** A log shaped like the handler's reports once if it ends with the
      report and never otherwise. */
  lemma ReportsOfLog(calls: seq<Call>, ok: bool)
    requires ok ==> ReportedLast(calls)
    requires !ok ==> LookupsAndRemediations(calls)
    ensures Reports(calls) == if ok then 1 else 0
  {
    if ok {
      var before := calls[..|calls| - 1];
      NoReports(before);
      assert calls == before + [calls[|calls| - 1]];
      ReportsOfAppend(before, [calls[|calls| - 1]]);
      assert [calls[|calls| - 1]][1..] == [];
    } else {
      NoReports(calls);
    }
  }

  /** The handler (as written or corrected) reports exactly one evaluation
      when it returns and none when it raises; the report is the last
      request it sends. */
  lemma HandleReportsOnlyOnSuccess(event: Value, historyResponse: Value, reportItem: bool)
    ensures var r := HandleReporting(event, historyResponse, reportItem);
            Reports(r.calls) == if r.outcome.Ok? then 1 else 0
    ensures var r := HandleReporting(event, historyResponse, reportItem);
            r.outcome.Ok? ==> |r.calls| >= 1 && r.calls[|r.calls| - 1].PutEvaluations?
  {
    var r := HandleReporting(event, historyResponse, reportItem);
    RequestsBeforeReport(event, historyResponse, reportItem);
    ReportsOfLog(r.calls, r.outcome.Ok?);
  }

  /** Whether no request tags or stops an instance. */
  predicate NoRemediation(calls: seq<Call>) {
    forall j :: 0 <= j < |calls| ==> !IsRemediation(calls[j])
  }

  /** An instance is tagged or stopped only when the handler selected an item
      and found it in scope; out-of-scope resources are never touched. */
  lemma HandleRemediatesOnlyInScope(event: Value, historyResponse: Value, reportItem: bool)
    ensures var r := HandleReporting(event, historyResponse, reportItem);
            (exists j :: 0 <= j < |r.calls| && IsRemediation(r.calls[j]))
            ==> ReachesClassifier(event, historyResponse)
  {
    var r := HandleReporting(event, historyResponse, reportItem);
    if !ReachesClassifier(event, historyResponse) && ReadEvent(event).Ok? {
      var (invokingEvent, ruleParameters) := ReadEvent(event).value;
      var selected := SelectItem(invokingEvent, historyResponse);
      assert NoRemediation(selected.calls);
      if selected.outcome.Ok? {
        var item := selected.outcome.value;
        var responded := Respond(invokingEvent, item, event, ruleParameters, reportItem);
        RespondOutOfScope(invokingEvent, item, event, ruleParameters, reportItem);
        NoRemediationAppend(selected.calls, responded.calls);
      }
    }
  }

  /** An item out of scope is answered without any remediation. */
  lemma RespondOutOfScope(invokingEvent: Value, item: Value, event: Value, ruleParameters: Value, reportItem: bool)
    requires IsApplicable(item, event) != Ok(true)
    ensures NoRemediation(Respond(invokingEvent, item, event, ruleParameters, reportItem).calls)
  {
    var r := Respond(invokingEvent, item, event, ruleParameters, reportItem);
    assert Evaluate(item, event, ruleParameters).calls == [];
    assert |r.calls| <= 1;
  }

  /** Logs without remediations, appended, have none. */
  lemma NoRemediationAppend(a: seq<Call>, b: seq<Call>)
    requires NoRemediation(a) && NoRemediation(b)
    ensures NoRemediation(a + b)
  {
    forall j | 0 <= j < |a + b| ensures !IsRemediation((a + b)[j]) {
      if j >= |a| {
        assert (a + b)[j] == b[j - |a|];
      }
    }
  }

  /** When the handler returns, the one evaluation it reports carries the
      verdict for the selected item, the resource fields of the invoking
      event's `configurationItem`, and the event's result token. */
  lemma HandleReportsVerdict(event: Value, historyResponse: Value)
    requires Handle(event, historyResponse).outcome.Ok?
    ensures var r := Handle(event, historyResponse);
            && event.Dict? && "resultToken" in event.fields
            && var invokingEvent := event.fields["invokingEvent"];
            && invokingEvent.Dict? && "configurationItem" in invokingEvent.fields
            && DescribesResource(invokingEvent.fields["configurationItem"])
            && SelectedItem(event, historyResponse).Ok?
            && var item := SelectedItem(event, historyResponse).value;
            && var ruleParameters := ReadEvent(event).value.1;
            && Evaluate(item, event, ruleParameters).outcome.Ok?
            && r.calls[|r.calls| - 1]
               == PutEvaluations(Described(invokingEvent.fields["configurationItem"],
                                           Evaluate(item, event, ruleParameters).outcome.value),
                                 event.fields["resultToken"])
  {
    var (invokingEvent, ruleParameters) := ReadEvent(event).value;
    var selected := SelectItem(invokingEvent, historyResponse);
    var item := selected.outcome.value;
    var evaluated := Evaluate(item, event, ruleParameters);
    var responded := Respond(invokingEvent, item, event, ruleParameters, false);
    assert responded.calls == evaluated.calls + [Report(invokingEvent, evaluated.outcome.value, event).value];
    DropLast(selected.calls, evaluated.calls, responded.calls);
  }

  /** The handler's requests, in order: at most the one history lookup of
      the item selection, then the remediations of the evaluation of the
      selected item, then, when the handler returns, the one report. */
  lemma HandleRequests(event: Value, historyResponse: Value, reportItem: bool)
    requires ReadEvent(event).Ok?
    ensures var invokingEvent := ReadEvent(event).value.0;
            var selected := SelectItem(invokingEvent, historyResponse);
            var r := HandleReporting(event, historyResponse, reportItem);
            && |selected.calls| <= 1
            && (selected.calls != [] ==> selected.calls == [HistoryQuery(invokingEvent).value])
            && (selected.outcome.Err? ==> r.calls == selected.calls)
    ensures var (invokingEvent, ruleParameters) := ReadEvent(event).value;
            var selected := SelectItem(invokingEvent, historyResponse);
            var r := HandleReporting(event, historyResponse, reportItem);
            selected.outcome.Ok? ==>
              var item := selected.outcome.value;
              var evaluated := Evaluate(item, event, ruleParameters);
              && (r.outcome.Err? ==> r.calls == selected.calls + evaluated.calls)
              && (r.outcome.Ok? ==>
                    && evaluated.outcome.Ok?
                    && var put := if reportItem then ReportOn(item, evaluated.outcome.value, event)
                                  else Report(invokingEvent, evaluated.outcome.value, event);
                    && put.Ok? && r.calls == selected.calls + evaluated.calls + [put.value])
  {
  }

  /** With the correction, every evaluated item that names its resource is
      reported exactly once, oversized notification or not, and the report
      describes that item. */
  lemma CorrectedReportsEvaluatedItem(event: Value, historyResponse: Value)
    requires SelectedItem(event, historyResponse).Ok?
    requires var item := SelectedItem(event, historyResponse).value;
             DescribesResource(item)
             && Evaluate(item, event, ReadEvent(event).value.1).outcome.Ok?
    requires event.Dict? && "resultToken" in event.fields
    ensures var r := HandleCorrected(event, historyResponse);
            var item := SelectedItem(event, historyResponse).value;
            && r.outcome == Ok(())
            && Reports(r.calls) == 1
            && r.calls[|r.calls| - 1]
               == PutEvaluations(Described(item, Evaluate(item, event, ReadEvent(event).value.1).outcome.value),
                                 event.fields["resultToken"])
  {
    var (invokingEvent, ruleParameters) := ReadEvent(event).value;
    var selected := SelectItem(invokingEvent, historyResponse);
    var item := selected.outcome.value;
    var evaluated := Evaluate(item, event, ruleParameters);
    var responded := Respond(invokingEvent, item, event, ruleParameters, true);
    assert responded.calls == evaluated.calls + [ReportOn(item, evaluated.outcome.value, event).value];
    DropLast(selected.calls, evaluated.calls, responded.calls);
    HandleReportsOnlyOnSuccess(event, historyResponse, true);
  }

  /** An event without `ruleParameters` is handled as one whose rule
      parameters are an empty dict. */
  lemma AbsentRuleParametersAreEmpty(event: Value, historyResponse: Value)
    requires event.Dict? && "invokingEvent" in event.fields && "ruleParameters" !in event.fields
    ensures var withEmpty := Dict(event.fields["ruleParameters" := Dict(map[])]);
            Handle(event, historyResponse) == Handle(withEmpty, historyResponse)
  {
    var withEmpty := Dict(event.fields["ruleParameters" := Dict(map[])]);
    assert Truthy(withEmpty) by {
      assert "ruleParameters" in withEmpty.fields.Keys;
    }
    assert Truthy(event) by {
      assert "invokingEvent" in event.fields.Keys;
    }
    assert ReadEvent(withEmpty) == ReadEvent(event);
    var (invokingEvent, ruleParameters) := ReadEvent(event).value;
    var selected := SelectItem(invokingEvent, historyResponse);
    if selected.outcome.Ok? {
      var item := selected.outcome.value;
      assert Index(event, "eventLeftScope") == Index(withEmpty, "eventLeftScope");
      assert Index(event, "resultToken") == Index(withEmpty, "resultToken");
      assert IsApplicable(item, event) == IsApplicable(item, withEmpty);
      assert Evaluate(item, event, ruleParameters) == Evaluate(item, withEmpty, ruleParameters);
      assert forall v :: Report(invokingEvent, v, event) == Report(invokingEvent, v, withEmpty);
      assert Respond(invokingEvent, item, event, ruleParameters, false)
             == Respond(invokingEvent, item, withEmpty, ruleParameters, false);
    }
  }

  // ---------------------------------------------------------------------
  // The report of an oversized notification

  /** As written, an oversized notification (which carries only a
      `configurationItemSummary`) makes the report raise KeyError once the
      item has been evaluated: the history lookup and any remediation have
      already been sent, but no evaluation ever is. */
  lemma OversizedReportRaises(event: Value, historyResponse: Value)
    requires ReadEvent(event).Ok?
    requires var invokingEvent := ReadEvent(event).value.0;
             NotificationShape(invokingEvent) == Ok(true) && "configurationItem" !in invokingEvent.fields
    requires SelectedItem(event, historyResponse).Ok?
    requires Evaluate(SelectedItem(event, historyResponse).value, event, ReadEvent(event).value.1).outcome.Ok?
    ensures Handle(event, historyResponse).outcome == Err(KeyError("configurationItem"))
    ensures Reports(Handle(event, historyResponse).calls) == 0
  {
    HandleReportsOnlyOnSuccess(event, historyResponse, false);
  }

  /** A concrete oversized notification for an EC2 instance: the handler as
      written raises instead of reporting, the corrected one reports. */
  lemma OversizedNotificationIsNeverReported()
    ensures Handle(OversizedEvent(), OversizedHistory()).outcome == Err(KeyError("configurationItem"))
    ensures HandleCorrected(OversizedEvent(), OversizedHistory()).outcome == Ok(())
  {
    var event := OversizedEvent();
    OversizedEventIsOversized();
    OversizedItemIsNonCompliant();
    OversizedReportRaises(event, OversizedHistory());
    CorrectedReportsEvaluatedItem(event, OversizedHistory());
  }

  /** The example event reads as an oversized notification. */
  lemma OversizedEventIsOversized()
    ensures ReadEvent(OversizedEvent()) == Ok((OversizedEvent().fields["invokingEvent"], Dict(map[])))
    ensures NotificationShape(OversizedEvent().fields["invokingEvent"]) == Ok(true)
    ensures HistoryQuery(OversizedEvent().fields["invokingEvent"]).Ok?
  {
    var event := OversizedEvent();
    var invokingEvent := event.fields["invokingEvent"];
    var summary := invokingEvent.fields["configurationItemSummary"];
    assert "invokingEvent" in event.fields.Keys;
    assert "messageType" in invokingEvent.fields.Keys;
    assert "resourceType" in summary.fields.Keys;
  }

  /** The item fetched for the example is in scope and, with no desired
      instance types, NON_COMPLIANT without any remediation. */
  lemma OversizedItemIsNonCompliant()
    ensures SelectedItem(OversizedEvent(), OversizedHistory()) == Converted(OversizedRecord())
    ensures Converted(OversizedRecord()).Ok?
    ensures var item := Converted(OversizedRecord()).value;
            DescribesResource(item)
            && Evaluate(item, OversizedEvent(), Dict(map[])) == Run(Ok(NonCompliant), [])
  {
    OversizedHistoryHoldsRecord();
    OversizedRecordConverts();
    var item := Converted(OversizedRecord()).value;
    OversizedItemInScope(item);
    ClassifyWithoutDesiredTypes(item, Dict(map[]));
  }

  /** An EC2 item with status OK and a non-empty configuration passes the
      applicability filter for the example event. */
  lemma OversizedItemInScope(item: Value)
    requires item.Dict? && "configurationItemStatus" in item.fields
    requires item.fields["configurationItemStatus"] == Str("OK")
    requires "configuration" in item.fields
    requires item.fields["configuration"] == Dict(map["instanceType" := Str("t2.micro")])
    ensures Truthy(item.fields["configuration"])
    ensures IsApplicable(item, OversizedEvent()) == Ok(true)
  {
    var event := OversizedEvent();
    assert "instanceType" in item.fields["configuration"].fields.Keys;
    assert Truthy(item) by {
      assert "configuration" in item.fields.Keys;
    }
    assert Truthy(event) by {
      assert "invokingEvent" in event.fields.Keys;
    }
    assert event.fields["eventLeftScope"] == Bool(false);
  }

  /** The handler selects the one record of the example history. */
  lemma OversizedHistoryHoldsRecord()
    ensures SelectedItem(OversizedEvent(), OversizedHistory()) == Converted(OversizedRecord())
  {
    OversizedEventIsOversized();
    assert FetchedItem(OversizedHistory()) == Converted(OversizedRecord());
  }

  /** The example record converts to an in-scope EC2 item. */
  lemma OversizedRecordConverts()
    ensures Converted(OversizedRecord()).Ok?
    ensures var item := Converted(OversizedRecord()).value;
            && DescribesResource(item)
            && item.fields["configurationItemStatus"] == Str("OK")
            && item.fields["resourceType"] == Str(EC2_INSTANCE)
            && "configuration" in item.fields
            && item.fields["configuration"] == Dict(map["instanceType" := Str("t2.micro")])
  {
    var record := OversizedRecord();
    assert "accountId" in record.fields.Keys;
    var item := Converted(record).value;
    assert "resourceId" in item.fields.Keys && "configurationItemCaptureTime" in item.fields.Keys;
    assert "configurationItemStatus" !in RENAMED_KEYS && "resourceType" !in RENAMED_KEYS;
    assert "configuration" !in RENAMED_KEYS;
    assert record.fields["configurationItemStatus"] == Str("OK");
    assert record.fields["resourceType"] == Str(EC2_INSTANCE);
    assert record.fields["configuration"] == Dict(map["instanceType" := Str("t2.micro")]);
  }

  /** An oversized notification for an EC2 instance, with no rule parameters. */
  function OversizedEvent(): (r: Value)
    ensures r.Dict? && "invokingEvent" in r.fields && r.fields["invokingEvent"].Dict?
            && "configurationItemSummary" in r.fields["invokingEvent"].fields
            && "configurationItem" !in r.fields["invokingEvent"].fields
  {
    var summary := Dict(map["resourceType" := Str(EC2_INSTANCE), "resourceId" := Str("i-1"),
                            "configurationItemCaptureTime" := Str("t")]);
    var invokingEvent := Dict(map["messageType" := Str(OVERSIZED_NOTIFICATION),
                                  "configurationItemSummary" := summary]);
    Dict(map["invokingEvent" := invokingEvent, "eventLeftScope" := Bool(false),
             "resultToken" := Str("token")])
  }

  /** The history record of that instance, as the history API returns it. */
  function OversizedRecord(): (r: Value)
    ensures r.Dict? && HasApiKeys(r.fields) && "relationships" !in r.fields
  {
    Dict(map["accountId" := Str("1"), "arn" := Str("a"), "configurationItemMD5Hash" := Str(""),
             "version" := Str("1.3"), "configuration" := Dict(map["instanceType" := Str("t2.micro")]),
             "configurationItemStatus" := Str("OK"), "resourceType" := Str(EC2_INSTANCE),
             "resourceId" := Str("i-1"), "configurationItemCaptureTime" := Str("t")])
  }

  /** The history lookup's response holding that one record. */
  function OversizedHistory(): Value {
    Dict(map["configurationItems" := List([OversizedRecord()])])
  }

  /** `lambda_handler`, sending its requests through the clients. */
  method LambdaHandler(event: Value, aws: Aws) returns (r: Result<()>)
    modifies aws
    ensures r == Handle(event, aws.historyResponse).outcome
    ensures aws.calls == old(aws.calls) + Handle(event, aws.historyResponse).calls
  {
    var read := ReadEvent(event);
    if read.Err? {
      assert Handle(event, aws.historyResponse) == Run(Err(read.error), []);
      return Err(read.error);
    }
    var (invokingEvent, ruleParameters) := read.value;
    ghost var selected := SelectItem(invokingEvent, aws.historyResponse);
    var item := GetConfigurationItem(invokingEvent, aws);
    ghost var afterSelection := aws.calls;
    assert afterSelection == old(aws.calls) + selected.calls;
    if item.Err? {
      assert Handle(event, aws.historyResponse) == Run(Err(item.error), selected.calls);
      return Err(item.error);
    }
    ghost var responded := Respond(invokingEvent, item.value, event, ruleParameters, false);
    assert Handle(event, aws.historyResponse) == Run(responded.outcome, selected.calls + responded.calls);
    r := EvaluateAndReport(invokingEvent, item.value, event, ruleParameters, aws);
    AppendIsAssociative(old(aws.calls), selected.calls, responded.calls);
  }

  /** The second half of `lambda_handler`: classify the item if it is in
      scope, then send `put_evaluations` as written. */
  method EvaluateAndReport(invokingEvent: Value, item: Value, event: Value, ruleParameters: Value, aws: Aws)
    returns (r: Result<()>)
    modifies aws
    ensures r == Respond(invokingEvent, item, event, ruleParameters, false).outcome
    ensures aws.calls == old(aws.calls) + Respond(invokingEvent, item, event, ruleParameters, false).calls
  {
    var verdict := EvaluateItem(item, event, ruleParameters, aws);
    ghost var evaluated := Evaluate(item, event, ruleParameters);
    if verdict.Err? {
      return Err(verdict.error);
    }
    var put := Report(invokingEvent, verdict.value, event);
    RespondAfterVerdict(invokingEvent, item, event, ruleParameters, verdict.value);
    if put.Err? {
      return Err(put.error);
    }
    aws.PutEvaluation(put.value.evaluation, put.value.resultToken);
    assert aws.calls == old(aws.calls) + (evaluated.calls + [put.value]);
    r := Ok(());
  }

  /** Once the item has its verdict, the handler as written sends the report
      or raises building it. */
  lemma RespondAfterVerdict(invokingEvent: Value, item: Value, event: Value, ruleParameters: Value, verdict: Verdict)
    requires Evaluate(item, event, ruleParameters).outcome == Ok(verdict)
    ensures var calls := Evaluate(item, event, ruleParameters).calls;
            var put := Report(invokingEvent, verdict, event);
            Respond(invokingEvent, item, event, ruleParameters, false)
            == if put.Err? then Run(Err(put.error), calls) else Run(Ok(()), calls + [put.value])
  {
  }

  /** The verdict of `lambda_handler`: NOT_APPLICABLE unless the item is in
      scope, in which case the classifier runs against EC2. */
  method EvaluateItem(item: Value, event: Value, ruleParameters: Value, aws: Aws) returns (r: Result<Verdict>)
    modifies aws
    ensures r == Evaluate(item, event, ruleParameters).outcome
    ensures aws.calls == old(aws.calls) + Evaluate(item, event, ruleParameters).calls
  {
    var applicable := IsApplicable(item, event);
    if applicable.Err? {
      return Err(applicable.error);
    }
    if !applicable.value {
      return Ok(NotApplicable);
    }
    r := EvaluateChangeNotificationCompliance(item, ruleParameters, aws);
  }
}

=== FILE: python.dfy ===
/** Python values as the Lambda functions see them once the JSON event has been
    decoded, and the few Python operations on them that the functions rely on:
    truthiness, `d[key]`, `d.get(key)`, `x[0]` and the `in` operator. */
module Python {

  /** A decoded JSON value. JSON numbers, integral or not, are `Num`. */
  datatype Value =
    | Null
    | Bool(b: bool)
    | Num(n: real)
    | Str(s: string)
    | List(items: seq<Value>)
    | Dict(fields: map<string, Value>)

  /** The exceptions the modelled code can raise. `NotDefined` is the plain
      `Exception` raised by `check_defined`, carrying the name it was given. */
  datatype PyError =
    | KeyError(key: string)
    | IndexError
    | TypeError
    | AttributeError
    | NotDefined(name: string)

  /** Either a value or the exception that aborted the computation. */
  datatype Result<T> = Ok(value: T) | Err(error: PyError) {
    predicate IsFailure() { Err? }
    function PropagateFailure<U>(): Result<U> requires Err? { Err(error) }
    function Extract(): T requires Ok? { value }
  }

  /** Python truthiness: None, False, zero and empty containers are falsy. */
  predicate Truthy(v: Value) {
    match v
    case Null => false
    case Bool(b) => b
    case Num(n) => n != 0.0
    case Str(s) => s != []
    case List(items) => items != []
    case Dict(fields) => fields != map[]
  }

  /** `check_defined(reference, reference_name)`: hands back a truthy value
      unchanged and raises for every falsy one. */
  function CheckDefined(v: Value, name: string): (r: Result<Value>)
    ensures r.Ok? <==> Truthy(v)
    ensures r.Ok? ==> r.value == v
    ensures r.Err? ==> r.error == NotDefined(name)
  {
    if Truthy(v) then Ok(v) else Err(NotDefined(name))
  }

  /** `v[key]` with a string key: only a dict can be indexed by a string. */
  function Index(v: Value, key: string): (r: Result<Value>)
    ensures r.Ok? <==> v.Dict? && key in v.fields
    ensures r.Ok? ==> r.value == v.fields[key]
    ensures r == Err(KeyError(key)) <==> v.Dict? && key !in v.fields
  {
    match v
    case Dict(m) => if key in m then Ok(m[key]) else Err(KeyError(key))
    case _ => Err(TypeError)
  }

  /** `v.get(key)`: a missing key gives None; only dicts have `get`. */
  function Get(v: Value, key: string): (r: Result<Value>)
    ensures r.Ok? <==> v.Dict?
    ensures r.Ok? ==> r.value == if key in v.fields then v.fields[key] else Null
  {
    match v
    case Dict(m) => Ok(if key in m then m[key] else Null)
    case _ => Err(AttributeError)
  }

  /** `v[0]`. A JSON dict has only string keys, so the integer 0 is never one. */
  function First(v: Value): (r: Result<Value>)
    ensures v.List? && v.items != [] ==> r == Ok(v.items[0])
    ensures v.List? && v.items == [] ==> r == Err(IndexError)
  {
    match v
    case List(xs) => if xs != [] then Ok(xs[0]) else Err(IndexError)
    case Str(s) => if s != [] then Ok(Str([s[0]])) else Err(IndexError)
    case Dict(_) => Err(KeyError("0"))
    case _ => Err(TypeError)
  }

  /** Whether `p` occurs as a contiguous piece of `s` (`p in s` on strings). */
  predicate IsSubstring(p: string, s: string)
    decreases |s|
  {
    p <= s || (s != [] && IsSubstring(p, s[1..]))
  }

  /** `x in container`: a substring test on strings, an element test on
      lists and a key test on dicts. */
  function PyIn(x: Value, container: Value): (r: Result<bool>)
    ensures container.List? ==> r == Ok(x in container.items)
    ensures container.Str? && x.Str? ==> r == Ok(IsSubstring(x.s, container.s))
    ensures container.Dict? && x.Str? ==> r == Ok(x.s in container.fields)
    ensures container.Null? || container.Bool? || container.Num? ==> r == Err(TypeError)
  {
    match container
    case Str(s) => if x.Str? then Ok(IsSubstring(x.s, s)) else Err(TypeError)
    case List(xs) => Ok(x in xs)
    case Dict(m) => if x.List? || x.Dict? then Err(TypeError) else Ok(x.Str? && x.s in m)
    case _ => Err(TypeError)
  }

  /** A string never occurs inside a shorter one. */
  lemma {:induction false} LongerNeverOccurs(p: string, s: string)
    requires |p| > |s|
    ensures !IsSubstring(p, s)
    decreases |s|
  {
    if s != [] {
      LongerNeverOccurs(p, s[1..]);
    }
  }
}

=== FILE: services.dfy ===
/** The AWS services the compliance rule talks to (AWS Config and EC2), seen
    only through the requests it sends them. Every request is appended to one
    log, in the order the function issues it; nothing ever removes one. */
module Services {
  import opened Python

  /** The verdict reported for a configuration item. */
  datatype Verdict = Compliant | NonCompliant | NotApplicable

  /** One entry of `put_evaluations(Evaluations=[...])`. */
  datatype Evaluation = Evaluation(
    complianceResourceType: Value,
    complianceResourceId: Value,
    complianceType: Verdict,
    orderingTimestamp: Value)

  /** A request sent to a service. Instances are named by the `resourceId`
      value they were found under. */
  datatype Call =
    | GetHistory(resourceType: Value, resourceId: Value, laterTime: Value, limit: nat)
    | CreateTags(resource: Value, key: string, value: string)
    | StopInstances(instance: Value)
    | PutEvaluations(evaluation: Evaluation, resultToken: Value)

  /** What a step of the function did: how it ended, and the requests it sent
      before it ended. An exception does not undo requests already sent. */
  datatype Run<T> = Run(outcome: Result<T>, calls: seq<Call>)

  /** Whether a request reaches EC2 (tagging or stopping an instance). */
  predicate IsRemediation(c: Call) {
    c.CreateTags? || c.StopInstances?
  }

  /** The clients `AWS_CONFIG_CLIENT` and `AWS_EC2_CLIENT`. The configuration
      history the Config service holds is fixed for one invocation. */
  class Aws {
    const historyResponse: Value
    var calls: seq<Call>

    constructor (historyResponse: Value)
      ensures this.historyResponse == historyResponse && calls == []
    {
      this.historyResponse := historyResponse;
      calls := [];
    }

    /** `get_resource_config_history(resourceType=..., resourceId=...,
        laterTime=..., limit=...)`. */
    method GetResourceConfigHistory(resourceType: Value, resourceId: Value, laterTime: Value, limit: nat)
      returns (response: Value)
      modifies this
      ensures calls == old(calls) + [GetHistory(resourceType, resourceId, laterTime, limit)]
      ensures response == historyResponse
    {
      calls := calls + [GetHistory(resourceType, resourceId, laterTime, limit)];
      response := historyResponse;
    }

    /** `tag_instance(instanceId, key, value)`: one `create_tags` request. */
    method TagInstance(instance: Value, key: string, value: string)
      modifies this
      ensures calls == old(calls) + [CreateTags(instance, key, value)]
    {
      calls := calls + [CreateTags(instance, key, value)];
    }

    /** `stop_instances(instanceIds)`: one `stop_instances` request. */
    method StopInstance(instance: Value)
      modifies this
      ensures calls == old(calls) + [StopInstances(instance)]
    {
      calls := calls + [StopInstances(instance)];
    }

    /** `put_evaluations(Evaluations=[evaluation], ResultToken=token)`. */
    method PutEvaluation(evaluation: Evaluation, resultToken: Value)
      modifies this
      ensures calls == old(calls) + [PutEvaluations(evaluation, resultToken)]
    {
      calls := calls + [PutEvaluations(evaluation, resultToken)];
    }
  }
}
